=== FILE: README.md ===
# achan image board — a Dafny model of the thread and board API

This project models the core of the achan image-board backend. Boards are
addressed by a short name, and each board holds threads that start with an
image. Replies hang off threads, and anonymous posters can delete their
threads with a password. The model covers:

- **Thread service** (`ThreadService`): the paginated listing of a board's
  threads, newest bump first, each with its reply count and three newest
  replies; the board-scoped lookup of one thread with its replies oldest
  first and their child replies; thread creation, where the poster name
  defaults to `Anonymous`; and deletion, which checks the board, then the
  thread, then the password.
- **Thread handlers** (`ThreadController`): status codes, response bodies,
  media URLs, and the media files a request leaves behind. The application
  state is `World(store, files)`: the database together with the image and
  thumbnail directories.
- **Image service** (`ImageService`): the stored names of an upload and its
  `thumb_` thumbnail, the image metadata defaults, and best-effort removal
  of both files.
- **Board service and handlers** (`BoardService`, `BoardController`): listing
  ordered by short name with thread counts, lookup, create, update and
  delete. The store's unique-key and missing-record errors are returned as
  values.
- **Request schemas** (`ThreadValidators`, `BoardValidators`) and the
  **error-handling middleware** (`Http`): how an error turns into a status
  and a JSON body, and when its message is hidden from the client.

The database is the value `Store.Store`: boards are a map keyed by short
name, and threads and replies are sequences in insertion order. The
autoincrement ids come from counters kept in the store value, and the
`now()` timestamp is a parameter `now`. The password library is a `Hasher`
value. The failures of the create handler's library calls are explicit
parameters: image processing, the hasher, the board lookup of `createThread`
(`prisma.board.findUnique`) and the insert. So is the failure of an unlink
of a given path. Other library failures are listed under
"Left out".

## Model

| member | source | states |
|---|---|---|
| Http.GeneralErrorHandler | src/core/middleware/errorHandler.ts:17-32 | The status is the error's status code when one is set and non-zero, otherwise 500. The error's own message is shown exactly when the error is operational or its status is below 500; otherwise the client gets "An unexpected error occurred.". Stack and details are added exactly in development. |
| Http.RouteNotFoundResponse | src/core/middleware/errorHandler.ts:11-15 | A request no route matches ends as a 404 whose message is "Route not found: " followed by the method, a space and the URL. |
| Http.UnexposedMessagesDoNotLeak | src/core/middleware/errorHandler.ts:26-32 | Outside development, two unexposed errors with the same status and operational flag give identical responses, so their messages cannot reach the client. |
| Http.Settle | src/core/middleware/errorHandler.ts:17-32 | A handler's own answer is sent unchanged. A raised error is sent with its status (500 by default), and an unexposed one with the generic message. |
| ThreadValidators.ParseCreateThread | src/api/threads/thread.validators.ts:8-13 | A new thread's body is accepted exactly when the subject is at most 255 characters, the comment is present and non-empty, and the poster name is at most 50 characters. Accepted fields pass through unchanged. |
| ThreadValidators.ParseCreateThreadRoundTrip | src/api/threads/thread.validators.ts:8-13 | An accepted body, presented again, parses back to itself; acceptance is stated in the literal bounds 1, 255 and 50. |
| ThreadController.ListQueryDefaults | src/api/threads/thread.controller.ts:19-21 | A missing page answers exactly as page 1 does, and a missing limit exactly as limit 15 does. A present page and limit reach the service as they are, with no lower bound: the handler raises exactly when the service refuses them, and answers 200 with the service's pagination exactly when the service returns a listing. |
| ThreadService.CeilDiv | src/api/threads/thread.service.ts:50 | `totalPages` is the least count of pages of `limit` threads that holds all of them. |
| ThreadService.NewestKeepsNewest | src/api/threads/thread.service.ts:38-41 | The replies kept are min(n, all) of the given replies, a sub-multiset of them with no repeats beyond the input's, newest first. None left out is newer than one kept. |
| ThreadService.SummaryOfThread | src/api/threads/thread.service.ts:33-42 | A listed thread carries the count of its replies and at most three of them. They are a sub-multiset of its own replies, newest first, and the newest ones. |
| ThreadService.GetThreadsByBoard | src/api/threads/thread.service.ts:7-24 | No listing exactly when the board is missing. The model refuses the window exactly when the page (0 taken as 1) or the limit (0 taken as 15) is below 1; of these, the store itself refuses only a negative skip. |
| ThreadService.ListingIsPage | src/api/threads/thread.service.ts:11-59 | A listing counts all of the board's threads and rounds the page count up. Its rows are the board's threads, each at most as often as the board holds it, newest bump first, as many as the window (page-1)·limit, limit holds, each with its own summary. When no two of the board's threads share a bump time, the rows are exactly that window of the bump order. |
| ThreadService.PagesCoverBoard | src/api/threads/thread.service.ts:14-50 | When no two of the board's threads share a bump time, walking pages 1 to totalPages visits every thread of the board exactly once (as a multiset), in bump order. |
| ThreadService.PageInRange | src/api/threads/thread.service.ts:14-56 | A page has rows exactly when its number is at most totalPages. |
| ThreadService.GetThreadById | src/api/threads/thread.service.ts:63-91 | A thread is found exactly when one with that id belongs to the named board. Its replies are exactly the thread's replies, oldest first. Each reply's children are exactly the replies naming it as parent. |
| ThreadService.ThreadUnderOtherBoardNotFound | src/api/threads/thread.service.ts:63-76 | A thread of another board is never returned under this board's short name. |
| ThreadService.CreateThread | src/api/threads/thread.service.ts:94-132 | No thread and no change when the board is missing. Otherwise exactly one row is appended, under that board, carrying the request's fields, the poster name or "Anonymous", and a fresh id. Validity of the store is kept. |
| ThreadService.DeleteThread | src/api/threads/thread.service.ts:135-178 | Each refusal reason holds exactly when its check fails first: board, then thread, then a wrong password, then a missing one. A refusal changes nothing; a deletion removes the row and returns its two media names. |
| ThreadService.DeleteTwice | src/api/threads/thread.service.ts:150-175 | A deletion removes exactly the rows with that id, and deleting the same id again finds no thread. |
| ThreadService.CreateThenDelete | src/api/threads/thread.service.ts:94-178 | A thread deleted with the password it was created with is always deleted, returns its media names and restores the thread table. |
| ImageService.ProcessAndStoreImage | src/services/image.service.ts:15-39 | The stored name is the upload's, and the thumbnail name is "thumb_" plus it. Mimetype and size pass through, and a missing dimension becomes 0. Exactly the thumbnail file is added. |
| ImageService.ThumbnailNameRoundTrip | src/services/image.service.ts:21 | The image name can be read back from the thumbnail name, which differs from it. |
| ImageService.ThumbnailNameInjective | src/services/image.service.ts:21 | Distinct uploads get distinct thumbnail names. |
| ImageService.DeleteImageFiles | src/services/image.service.ts:41-53 | Only requested files are ever removed, and null or empty names are skipped. A failing image unlink also skips the thumbnail. An image that unlinks is removed whatever happens to the thumbnail, and a thumbnail that unlinks is removed unless a requested image failed first. When every requested file exists and unlinks, exactly those are removed. |
| ThreadController.UrlsRoundTrip | src/api/threads/thread.controller.ts:28-32 | The stored name can be read back from an image or thumbnail URL, and an image URL is never a thumbnail URL. |
| ThreadController.ImageUrlInjective | src/api/threads/thread.controller.ts:30 | Distinct stored names give distinct image URLs. |
| ThreadController.ListThreadsHandler | src/api/threads/thread.controller.ts:11-41 | 404 "Board not found" exactly when the board is missing. An error passed on exactly when the model refuses the window (a negative skip is refused by the store). 200 exactly when the service returns a listing, and then the listing's rows and pagination, each row with its image and thumbnail URL. |
| ThreadController.ListWithoutQuery | src/api/threads/thread.controller.ts:19-37 | Without a query, an existing board answers 200 with page 1 and min(15, its threads) rows. |
| ThreadController.NegativePageIsServerError | src/api/threads/thread.controller.ts:19-39 | A negative page reaches the store unchecked, and the client gets a 500 with the generic message. |
| ThreadController.RepliesWithUrls | src/api/threads/thread.controller.ts:64-72 | A reply has an image URL exactly when it has a stored image name, and the same for the thumbnail; the URL is built from that name. |
| ThreadController.GetThreadHandler | src/api/threads/thread.controller.ts:44-79 | 404 "Thread not found" exactly when the lookup finds nothing; otherwise 200 with the thread, its URLs and its replies with theirs. |
| ThreadController.CreateThreadWith | src/api/threads/thread.controller.ts:82-135 | With no file: 400 and nothing changes. An error is passed on exactly when a library call throws: processing, the hash of a truthy password, the board lookup, or the insert for an existing board. 404 exactly when the board is missing and nothing throws. 201 exactly when a file is given, the board exists and nothing throws. Anything but 201 leaves the store as it was. Files only ever gain the thumbnail. On a 404, with every unlink succeeding, both the upload and its thumbnail are removed. After a raised error the upload is removed, and the thumbnail only with the corrected cleanup. On 201 there is one row with: the body's fields; the poster name or "Anonymous"; the hash of a truthy password only; the original name, mimetype, size and dimensions (missing ones as 0); the client address and the time. The thumbnail file is added and both URLs are returned. |
| ThreadController.CreateThreadHandlerAsWritten | src/api/threads/thread.controller.ts:128-133 | As written, a raised error leaves the store unchanged, and one raised after processing leaves the thumbnail on disk. |
| ThreadController.CreateThreadHandler | src/api/threads/thread.controller.ts:113-133 | With the corrected cleanup, every unlink succeeding and the uploaded image on disk, any answer but 201 leaves no file that was not there before; a raised error leaves the store unchanged. |
| ThreadController.CreateSucceeds | src/api/threads/thread.controller.ts:96-127 | With no failing library call and an existing board, the answer is 201: one row is appended under that board, with a fresh id in a valid store, and exactly the thumbnail file is added. |
| ThreadController.AsWrittenRemovesUpload | src/api/threads/thread.controller.ts:113-133 | As written, with every unlink succeeding, every answer but 201 removes the uploaded image and leaves the store unchanged. |
| ThreadController.DeleteThreadHandler | src/api/threads/thread.controller.ts:138-174 | The refusals map to 404 "Board not found", 404 "Thread not found", 400 and 403 and change nothing. A deletion answers 204 and asks to remove the thread's image and thumbnail. |
| ThreadController.DeletePreservesMedia | src/api/threads/thread.controller.ts:149-170 | With every unlink succeeding, a thread deletion keeps the media consistent: no orphaned files, and no row without its files. On 204, both of the thread's files are gone. |
| ThreadController.CreatePreservesMedia | src/api/threads/thread.controller.ts:87-135 | With every unlink succeeding, the create handler with the corrected cleanup keeps the media consistent, and any answer but 201 leaves files and store as before the upload. |
| ThreadController.AsWrittenOrphansThumbnail | src/api/threads/thread.controller.ts:128-133 | As written, a failing insert leaves the generated thumbnail on disk with no row naming it. |
| ThreadController.CreateThenDeleteHandlers | src/api/threads/thread.controller.ts:82-174 | With every unlink succeeding, creating a thread and deleting it with its password answers 201 then 204, and restores the thread table, the boards and the media directories. |
| BoardValidators.CheckShortName | src/api/boards/board.validators.ts:5 | A short name is accepted exactly when it has 1 to 10 characters, each an ASCII letter or digit. |
| BoardValidators.ParseCreateBoard | src/api/boards/board.validators.ts:3-9 | A board body is accepted exactly when it has a valid short name and a name of 1 to 100 characters; the fields pass through. |
| BoardValidators.ParseUpdateBoard | src/api/boards/board.validators.ts:13-21 | An update body is accepted exactly when its name is absent or 1 to 100 characters. The parsed value holds only the name and the description. |
| BoardValidators.UpdateIgnoresShortName | src/api/boards/board.validators.ts:17-20 | Update bodies that differ only in a short name are accepted alike and parse to the same value. |
| BoardService.GetBoardByShortName | src/api/boards/board.service.ts:19-30 | A board is found exactly when the short name is a key, together with the count of its threads. |
| BoardService.LookupIsUnique | src/api/boards/board.service.ts:19-30 | In a valid store, a lookup succeeds exactly when some board carries that short name, and only one does. |
| BoardService.GetAllBoards | src/api/boards/board.service.ts:4-17 | Every board appears once with its thread count, and nothing else appears, ordered by short name. |
| BoardService.CreateBoard | src/api/boards/board.service.ts:32-36 | A unique violation exactly when the short name is taken. Otherwise exactly that key is added with the given fields and a fresh id, and validity is kept. |
| BoardService.UpdateBoard | src/api/boards/board.service.ts:38-43 | Record-not-found exactly when the board is missing, and a unique violation exactly when a new short name is taken. Otherwise only the named columns change, the board moves to its new key, and validity is kept. |
| BoardService.DeleteBoard | src/api/boards/board.service.ts:45-49 | Record-not-found exactly when the board is missing; otherwise exactly that key is removed and the deleted row is returned. |
| BoardService.CreateThenLookup | src/api/boards/board.service.ts:19-36 | A created board is found under its short name with no threads, and every other lookup answers as before. |
| BoardService.CreateThenDeleteBoard | src/api/boards/board.service.ts:32-49 | Deleting a board just created restores the Board table. |
| BoardService.DeleteThenLookup | src/api/boards/board.service.ts:19-49 | After a delete the short name is free and every other lookup answers as before. |
| BoardService.UpdateKeepsKeys | src/api/boards/board.service.ts:38-43 | An update without a short name always succeeds, keeps every key and the board's short name, and leaves other boards alone. |
| BoardController.ListBoardsHandler | src/api/boards/board.controller.ts:7-14 | 200 with one entry per board, each the board with its thread count, and nothing else, ordered by short name. |
| BoardController.GetBoardHandler | src/api/boards/board.controller.ts:16-33 | 404 "Board not found" exactly when the board is missing; otherwise 200 with the board and its thread count. |
| BoardController.CreateBoardHandler | src/api/boards/board.controller.ts:35-51 | 409 "Board short name already exists." exactly when the short name is taken, with nothing changed. Otherwise 201 with the new board under that key, threads and replies untouched, and validity of the store kept. |
| BoardController.CreateBoardRoute | src/api/boards/board.routes.ts:15-19 | 400 "Validation failed" exactly when the body fails the create schema; otherwise the handler sees the checked fields. |
| BoardController.UpdateBoardRouteAsWritten | src/api/boards/board.routes.ts:22-26 | As written: 400 "Validation failed" exactly when the body fails the update schema, and then nothing changes. For a valid body, 404 exactly when the board is missing, and otherwise exactly the as-written handler's answer: 200 whenever the update of every field of the raw body is written. A 200 is such a written update; anything else leaves the store as it was. |
| BoardController.UpdateBoardRoute | src/api/boards/board.routes.ts:22-26 | With the parsed body: 400 "Validation failed" exactly when the body fails the update schema, 404 exactly when it passes and the board is missing. Anything but 200 changes nothing. A valid body for an existing board answers 200: the same board (id and short name) with the body's name and description where given and the old ones otherwise, and no other board changes. The set of short names is unchanged. |
| BoardController.UpdateBoardHandlerAsWritten | src/api/boards/board.controller.ts:53-73 | 404 exactly when the board is missing. A 200 answer is exactly a written update of the body as it arrived. Anything else leaves the store as it was. |
| BoardController.UpdateBoardHandler | src/api/boards/board.controller.ts:53-73 | With the parsed body: 404 exactly when the board is missing. Otherwise 200, and only the name and description of that board change. |
| BoardController.UpdateRouteKeepsShortNames | src/api/boards/board.validators.ts:13-21 | Through the update route with the parsed body, no board changes its short name and other boards are untouched, and a valid body for an existing board answers 200. |
| BoardController.AsWrittenUpdateRenames | src/api/boards/board.controller.ts:67 | As written, a short name in a valid update body renames the board: the old key is gone and the new one holds the same board id. |
| BoardController.AsWrittenUpdateAcceptsEmptyShortName | src/api/boards/board.controller.ts:67 | As written, an update body can give a board the empty short name, which the create schema rejects. |
| BoardController.AsWrittenRenameCollisionIsServerError | src/api/boards/board.controller.ts:67-72 | As written, renaming onto a taken short name changes nothing and answers 500 with the generic message. |
| BoardController.CreateThenGetBoard | src/api/boards/board.controller.ts:16-51 | A valid create answers 409 with nothing changed when the short name is taken; otherwise 201, and the board is then found. |
| BoardController.DeleteBoardHandler | src/api/boards/board.controller.ts:75-95 | 404 exactly when the board is missing and nothing changes. Otherwise 204 and exactly that board is removed, keeping validity. |
| BoardController.DeleteThenGetBoard | src/api/boards/board.controller.ts:16-95 | A deleted board answers 404 to a lookup and to a second delete. |
| Common.LexLeTotal | src/api/boards/board.service.ts:14-16 | The short-name order compares any two strings. |
| Common.LexLeTransitive | src/api/boards/board.service.ts:14-16 | The short-name order is transitive. |

## Left out

- The database engine: queries, transactions and `Promise.all` become pure functions over the store value. Collation is plain code-point order, and string lengths count characters rather than UTF-16 units.
- The Thread and Reply delete cascades: the schema is not part of this model. Deleting a thread leaves its replies, and deleting a board leaves its threads.
- ThreadController.DeletePreservesMedia: "no orphaned files" holds because a deleted thread's replies stay in the store and keep naming their files. With a cascade on the Reply foreign key, those replies would go and their files would be orphaned, since the handler unlinks only the thread's two files; with a restricting key, the thread delete would raise and the answer would be 500. Neither mode is modelled.
- Reply creation and bumping: no operation of these files writes a reply or moves `lastBumpedAt`.
- Image resizing: the resize is seen only through the metadata it reads and the thumbnail file it writes.
- Password hashing internals: salting and the work factor of the hash are inside the `Hasher` parameter.
- The multipart upload middleware: it is modelled by `ThreadController.Upload` (the upload file is written) and `ThreadController.FreshUpload` (its generated name is unused). The routes that mount it, and the order of upload and validation, are not modelled.
- Route mounting: `src/api/index.ts:9-11` leaves the thread routes unmounted. The thread handlers are modelled as if they were mounted, with their schemas applied first.
- The thread create route's 400 from validation: the upload middleware runs before validation (`src/api/threads/thread.routes.ts:25-30`), so a rejected body leaves the uploaded image on disk. The model starts after validation.
- `parseInt`: query values and thread ids arrive already parsed, as integers or missing. A `NaN` is not modelled.
- Listing windows the model refuses: a negative skip (refused by the store) or a negative take (see ThreadService.GetThreadsByBoard below) becomes a raised error with no status code. The store's message text is a stand-in.
- Error texts of the store library (unique violation, record not found): these are stand-ins too, and only their lack of a status code matters.
- The `default` branch of the thread deletion switch (500 "Failed to delete thread"): no refusal reason reaches it.
- Board create errors other than a short-name conflict.
- Logging, the server bootstrap, and the `NODE_ENV` and `BASE_URL` settings: the two settings are parameters.
- The validation error list in a 400 body: the body carries only its message.
- Body fields outside the schemas, apart from the short name in a board update.
- ThreadService.GetThreadsByBoard: a negative limit with a non-negative skip (page 1, or a negative page) is treated as a refused window, which ends as a 500. The store library reads a negative `take` from the end of the list and would answer 200 with a non-positive `totalPages`; that reading is not modelled.
- ThreadService.ListingIsPage: the exact rows of a page are stated only when no two of the board's threads share a bump time. With ties the database may list tied rows in either order, so only the count, the bump order and the bound by the board's own threads are promised.
- ThreadService.PagesCoverBoard: holds only when no two of the board's threads share a bump time. The database orders tied rows arbitrarily in each page query, so tied threads on a page boundary can be listed twice or not at all. The model's sort breaks ties by insertion order, which the program does not promise.
- Failures of library calls outside the create handler: the password comparison in thread deletion (`src/api/threads/thread.service.ts:164`), the board and thread lookups of the listing, single-thread and deletion paths, the thread delete (`src/api/threads/thread.service.ts:173`), and the board reads. Each would pass its error to the error handler.
- Http.Settle: the message of an exposed error is stated only inside `Http.GeneralErrorHandler`, not repeated in Settle's contract.

## Findings

| source | as written | input that shows it | evidently intended | confidence | as-written member | corrected member |
|---|---|---|---|---|---|---|
| src/api/threads/thread.controller.ts:128-133 | When an exception is caught after processing, the handler only removes `req.file.filename`; the thumbnail already written under `thumb_<name>` stays behind. | The board exists, the upload is processed, and the thread insert throws. | Remove the upload and its thumbnail, so that no file is left that no row names. | not executed | ThreadController.AsWrittenOrphansThumbnail | ThreadController.CreatePreservesMedia |
| src/api/boards/board.controller.ts:67 | `validate` discards the parsed body, so `updateBoard` receives the raw `req.body`, and a `shortName` key in it is written to the row. | PUT /boards/b with body `{"shortName": ""}` on an existing board `b`: it renames the board to the empty short name. | Only the schema's `name` and `description` reach the update; short names never change. | not executed | BoardController.AsWrittenUpdateRenames | BoardController.UpdateRouteKeepsShortNames |

=== FILE: board_controller.dfy ===
/**
  The board handlers and the routes that put the request validation in
  front of them. The validation middleware only checks a body: the value the
  schema parses is thrown away, and the handler receives the body exactly as
  it arrived.
 */
module BoardController {
  import opened Common
  import opened Seqs
  import opened Store
  import opened BoardValidators
  import opened BoardService
  import opened Http

  const BoardNotFoundMessage: string := "Board not found"
  const DuplicateShortNameMessage: string := "Board short name already exists."
  const ValidationFailedMessage: string := "Validation failed"

  datatype BoardBody =
    | BoardList(boards: seq<BoardWithCount>)
    | BoardFound(found: BoardWithCount)
    | BoardRow(board: Board)
    | MessageBody(message: string)
    | NoBody

  /** A handler's effect on the store and its answer. */
  datatype BoardOutcome = BoardOutcome(store: Store, response: Handled<BoardBody>)

  /** The errors the store raises on an update; they carry no status code, so
      they end as a 500. The texts stand for the store library's own messages. */
  const UniqueViolationError: ErrorRecord := ErrorRecord("unique constraint failed on shortName", None, None, "")
  const RecordNotFoundError: ErrorRecord := ErrorRecord("record to update not found", None, None, "")

  const ValidationFailed: Handled<BoardBody> := Respond(BadRequest, MessageBody(ValidationFailedMessage))

  /** `listBoardsHandler` */
  method ListBoardsHandler(s: Store) returns (r: Handled<BoardBody>)
    ensures r.Respond? && r.status == Ok && r.body.BoardList?
    ensures Sorted(r.body.boards, ByShortName)
    ensures |r.body.boards| == |s.boards|
    ensures forall k :: k in s.boards ==> GetBoardByShortName(s, k).value in r.body.boards
    ensures forall x :: x in r.body.boards ==> exists k :: k in s.boards && x == GetBoardByShortName(s, k).value
  {
    var boards := GetAllBoards(s);
    forall x | x in boards ensures exists k :: k in s.boards && x == GetBoardByShortName(s, k).value {
      var k :| k in s.boards && x == WithCount(s, s.boards[k]);
      assert x == GetBoardByShortName(s, k).value;
    }
    r := Respond(Ok, BoardList(boards));
  }

  /** `getBoardHandler` */
  function GetBoardHandler(s: Store, shortName: string): (r: Handled<BoardBody>)
    ensures r.Respond?
    ensures r.status == NotFound <==> shortName !in s.boards
    ensures r.status == NotFound ==> r.body == MessageBody(BoardNotFoundMessage)
    ensures r.status != NotFound ==> r == Respond(Ok, BoardFound(GetBoardByShortName(s, shortName).value))
  {
    match GetBoardByShortName(s, shortName)
    case None => Respond(NotFound, MessageBody(BoardNotFoundMessage))
    case Some(b) => Respond(Ok, BoardFound(b))
  }

  /** `createBoardHandler`; the unique violation on the short name becomes a 409. */
  function CreateBoardHandler(s: Store, input: CreateBoardInput): (r: BoardOutcome)
    ensures r.response.Respond?
    ensures r.response.status == Conflict <==> input.shortName in s.boards
    ensures r.response.status == Conflict ==>
              r.store == s && r.response.body == MessageBody(DuplicateShortNameMessage)
    ensures r.response.status != Conflict ==>
              && r.response.status == Created && r.response.body.BoardRow?
              && r.store.boards == s.boards[input.shortName := r.response.body.board]
              && r.response.body.board.shortName == input.shortName
              && r.response.body.board.name == input.name
              && r.response.body.board.description == input.description
              && r.store.threads == s.threads && r.store.replies == s.replies
    ensures Valid(s) ==> Valid(r.store)
  {
    match CreateBoard(s, input)
    case Written(s', b) => BoardOutcome(s', Respond(Created, BoardRow(b)))
    case UniqueViolation => BoardOutcome(s, Respond(Conflict, MessageBody(DuplicateShortNameMessage)))
    case RecordNotFound => BoardOutcome(s, Raise(RecordNotFoundError))
  }

  /** `POST /`: validation, then the handler. The fields the schema checks reach
      the handler unchanged. */
  function CreateBoardRoute(s: Store, body: RawBoardBody): (r: BoardOutcome)
    ensures r.response.Respond?
    ensures r.response == ValidationFailed <==> ParseCreateBoard(body).None?
    ensures r.response == ValidationFailed ==> r.store == s
    ensures ParseCreateBoard(body).Some? ==> r == CreateBoardHandler(s, ParseCreateBoard(body).value)
  {
    match ParseCreateBoard(body)
    case None => BoardOutcome(s, ValidationFailed)
    case Some(input) => CreateBoardHandler(s, input)
  }

  /** `updateBoardHandler` as written: the body goes to the store as the update's data. */
  function UpdateBoardHandlerAsWritten(s: Store, shortName: string, body: RawBoardBody): (r: BoardOutcome)
    ensures r.response == Respond(NotFound, MessageBody(BoardNotFoundMessage)) <==> shortName !in s.boards
    ensures !(r.response.Respond? && r.response.status == Ok) ==> r.store == s
    ensures r.response.Respond? && r.response.status == Ok ==>
              var u := UpdateBoard(s, shortName, BoardPatch(body.shortName, body.name, body.description));
              && u.Written?
              && r == BoardOutcome(u.store, Respond(Ok, BoardRow(u.board)))
    ensures shortName in s.boards ==>
              (r.response.Respond? && r.response.status == Ok <==>
                 UpdateBoard(s, shortName, BoardPatch(body.shortName, body.name, body.description)).Written?)
  {
    if shortName !in s.boards then BoardOutcome(s, Respond(NotFound, MessageBody(BoardNotFoundMessage)))
    else
      match UpdateBoard(s, shortName, BoardPatch(body.shortName, body.name, body.description))
      case Written(s', b) => BoardOutcome(s', Respond(Ok, BoardRow(b)))
      case UniqueViolation => BoardOutcome(s, Raise(UniqueViolationError))
      case RecordNotFound => BoardOutcome(s, Raise(RecordNotFoundError))
  }

  /** `updateBoardHandler` given the parsed body: only the name and the
      description can reach the store. */
  function UpdateBoardHandler(s: Store, shortName: string, input: UpdateBoardInput): (r: BoardOutcome)
    ensures r.response.Respond?
    ensures r.response.status == NotFound <==> shortName !in s.boards
    ensures r.response.status == NotFound ==> r.store == s && r.response.body == MessageBody(BoardNotFoundMessage)
    ensures r.response.status != NotFound ==>
              && r.response.status == Ok && r.response.body.BoardRow?
              && var b := r.response.body.board;
              && var before := s.boards[shortName];
              && b.id == before.id && b.shortName == before.shortName
              && b.name == (if input.name.Some? then input.name.value else before.name)
              && b.description == (if input.description.Some? then input.description else before.description)
              && r.store.boards == s.boards[shortName := b]
              && r.store.threads == s.threads && r.store.replies == s.replies
  {
    if shortName !in s.boards then BoardOutcome(s, Respond(NotFound, MessageBody(BoardNotFoundMessage)))
    else
      match UpdateBoard(s, shortName, BoardPatch(None, input.name, input.description))
      case Written(s', b) =>
        assert (s.boards - {shortName})[shortName := b] == s.boards[shortName := b];
        BoardOutcome(s', Respond(Ok, BoardRow(b)))
      case UniqueViolation => BoardOutcome(s, Raise(UniqueViolationError))
      case RecordNotFound => BoardOutcome(s, Raise(RecordNotFoundError))
  }

  /** `PUT /:shortName` as written: the body is validated, then passed on
      whole, so a 200 has written every field of the raw body. */
  function UpdateBoardRouteAsWritten(s: Store, shortName: string, body: RawBoardBody): (r: BoardOutcome)
    ensures r.response == ValidationFailed <==> ParseUpdateBoard(body).None?
    ensures r.response == ValidationFailed ==> r.store == s
    ensures ParseUpdateBoard(body).Some? ==>
              (r.response == Respond(NotFound, MessageBody(BoardNotFoundMessage)) <==> shortName !in s.boards)
    ensures !(r.response.Respond? && r.response.status == Ok) ==> r.store == s
    ensures r.response.Respond? && r.response.status == Ok ==>
              && ParseUpdateBoard(body).Some? && shortName in s.boards
              && var u := UpdateBoard(s, shortName, BoardPatch(body.shortName, body.name, body.description));
              && u.Written? && r.store == u.store && r.response.body == BoardRow(u.board)
    ensures && ParseUpdateBoard(body).Some? && shortName in s.boards
            && UpdateBoard(s, shortName, BoardPatch(body.shortName, body.name, body.description)).Written?
            ==> r.response.Respond? && r.response.status == Ok
    ensures ParseUpdateBoard(body).Some? ==> r == UpdateBoardHandlerAsWritten(s, shortName, body)
  {
    if ParseUpdateBoard(body).None? then BoardOutcome(s, ValidationFailed)
    else UpdateBoardHandlerAsWritten(s, shortName, body)
  }

  /** `PUT /:shortName` with the handler given the parsed body: 400 for a body
      the schema refuses, 404 for a missing board, otherwise 200 with the same
      board under the same short name. */
  function UpdateBoardRoute(s: Store, shortName: string, body: RawBoardBody): (r: BoardOutcome)
    ensures r.response.Respond?
    ensures r.response == ValidationFailed <==> ParseUpdateBoard(body).None?
    ensures r.response == ValidationFailed ==> r.store == s
    ensures r.response.status == NotFound <==> ParseUpdateBoard(body).Some? && shortName !in s.boards
    ensures r.response.status != Ok ==> r.store == s
    ensures r.response.status == Ok ==>
              && ParseUpdateBoard(body).Some? && shortName in s.boards
              && r.response.body.BoardRow?
              && r.response.body.board.id == s.boards[shortName].id
              && r.response.body.board.shortName == s.boards[shortName].shortName
              && r.store.boards.Keys == s.boards.Keys
    ensures ParseUpdateBoard(body).Some? && shortName in s.boards ==>
              var before := s.boards[shortName];
              && r.response.status == Ok
              && r.response.body.board.name == (if body.name.Some? then body.name.value else before.name)
              && r.response.body.board.description == (if body.description.Some? then body.description else before.description)
              && r.store.boards == s.boards[shortName := r.response.body.board]
    ensures ParseUpdateBoard(body).Some? ==> r == UpdateBoardHandler(s, shortName, ParseUpdateBoard(body).value)
  {
    match ParseUpdateBoard(body)
    case None => BoardOutcome(s, ValidationFailed)
    case Some(input) => UpdateBoardHandler(s, shortName, input)
  }

  /** `deleteBoardHandler` */
  function DeleteBoardHandler(s: Store, shortName: string): (r: BoardOutcome)
    ensures r.response.Respond?
    ensures r.response.status == NotFound <==> shortName !in s.boards
    ensures r.response.status == NotFound ==> r.store == s && r.response.body == MessageBody(BoardNotFoundMessage)
    ensures r.response.status != NotFound ==>
              && r.response == Respond(NoContent, NoBody)
              && r.store.boards == s.boards - {shortName}
              && r.store.threads == s.threads && r.store.replies == s.replies
    ensures Valid(s) ==> Valid(r.store)
  {
    if shortName !in s.boards then BoardOutcome(s, Respond(NotFound, MessageBody(BoardNotFoundMessage)))
    else
      match DeleteBoard(s, shortName)
      case Written(s', _) => BoardOutcome(s', Respond(NoContent, NoBody))
      case UniqueViolation => BoardOutcome(s, Raise(RecordNotFoundError))
      case RecordNotFound => BoardOutcome(s, Raise(RecordNotFoundError))
  }

  /** The update route with the parsed body never changes a short name: every
      board keeps its key, and every other board is untouched. */
  lemma UpdateRouteKeepsShortNames(s: Store, shortName: string, body: RawBoardBody, other: string)
    requires other != shortName
    ensures var r := UpdateBoardRoute(s, shortName, body);
            && r.response.Respond?
            && r.store.boards.Keys == s.boards.Keys
            && GetBoardByShortName(r.store, other) == GetBoardByShortName(s, other)
            && (r.response.status == Ok ==> r.response.body.board.shortName == s.boards[shortName].shortName)
            && (ParseUpdateBoard(body).Some? && shortName in s.boards ==> r.response.status == Ok)
  {
  }

  /** As written, a short name in an update body passes validation and renames
      the board: the old short name is gone and the new one answers. */
  lemma AsWrittenUpdateRenames(s: Store, shortName: string, body: RawBoardBody)
    requires shortName in s.boards && ParseUpdateBoard(body).Some?
    requires body.shortName.Some? && body.shortName.value != shortName && body.shortName.value !in s.boards
    ensures var r := UpdateBoardRouteAsWritten(s, shortName, body);
            && r.response.Respond? && r.response.status == Ok
            && shortName !in r.store.boards
            && body.shortName.value in r.store.boards
            && r.store.boards[body.shortName.value].id == s.boards[shortName].id
  {
  }

  /** As written, the rename skips the short-name rule of board creation: an
      update body with an empty short name gives a board the empty key. */
  lemma AsWrittenUpdateAcceptsEmptyShortName(s: Store, shortName: string)
    requires shortName in s.boards && shortName != "" && "" !in s.boards
    ensures var r := UpdateBoardRouteAsWritten(s, shortName, RawBoardBody(Some(""), None, None));
            && r.response == Respond(Ok, r.response.body)
            && "" in r.store.boards && !ValidShortName("")
  {
  }

  /** As written, renaming onto a taken short name is an uncaught unique
      violation: the client gets a 500 with the generic message. */
  lemma AsWrittenRenameCollisionIsServerError(s: Store, shortName: string, body: RawBoardBody, nodeEnv: string)
    requires shortName in s.boards && ParseUpdateBoard(body).Some?
    requires body.shortName.Some? && body.shortName.value != shortName && body.shortName.value in s.boards
    ensures var r := UpdateBoardRouteAsWritten(s, shortName, body);
            && r.store == s
            && Settle(r.response, nodeEnv).status == InternalServerError
            && Settle(r.response, nodeEnv).body.error.message == UnexpectedMessage
  {
  }

  /** Creating a board whose short name is taken is refused with 409 and
      changes nothing; otherwise the board can be fetched right after. */
  lemma CreateThenGetBoard(s: Store, body: RawBoardBody)
    requires ParseCreateBoard(body).Some?
    ensures var r := CreateBoardRoute(s, body);
            var name := body.shortName.value;
            && (name in s.boards ==> r.response.status == Conflict && r.store == s)
            && (name !in s.boards ==>
                  && r.response.status == Created
                  && GetBoardHandler(r.store, name) == Respond(Ok, BoardFound(WithCount(r.store, r.response.body.board))))
  {
  }

  /** A deleted board answers 404 afterwards, and deleting it again is a 404 too. */
  lemma DeleteThenGetBoard(s: Store, shortName: string)
    requires shortName in s.boards
    ensures var r := DeleteBoardHandler(s, shortName);
            && r.response.status == NoContent
            && GetBoardHandler(r.store, shortName).status == NotFound
            && DeleteBoardHandler(r.store, shortName).response.status == NotFound
  {
  }
}

=== FILE: board_service.dfy ===
/**
  The board service: the Board table as a map keyed by the unique short
  name. Listing orders by short name and counts each board's threads; the
  writes report the store's unique-key violation and missing-record errors
  as values.
 */
module BoardService {
  import opened Common
  import opened Seqs
  import opened Store
  import opened BoardValidators

  /** A board with `_count: { threads }`. */
  datatype BoardWithCount = BoardWithCount(board: Board, threadCount: nat)

  function WithCount(s: Store, b: Board): BoardWithCount {
    BoardWithCount(b, |ThreadsOf(s, b.id)|)
  }

  /** `orderBy: { shortName: 'asc' }` */
  predicate ByShortName(a: BoardWithCount, b: BoardWithCount) {
    LexLe(a.board.shortName, b.board.shortName)
  }

  /** `getBoardByShortName` */
  function GetBoardByShortName(s: Store, shortName: string): (r: Option<BoardWithCount>)
    ensures r.Some? <==> shortName in s.boards
    ensures r.Some? ==> r.value.board == s.boards[shortName]
    ensures r.Some? ==> r.value.threadCount == |ThreadsOf(s, r.value.board.id)|
  {
    if shortName in s.boards then Some(WithCount(s, s.boards[shortName])) else None
  }

  /** In a valid store the lookup finds the one board carrying that short name. */
  lemma LookupIsUnique(s: Store, shortName: string)
    requires Valid(s)
    ensures GetBoardByShortName(s, shortName).Some?
            <==> exists k :: k in s.boards && s.boards[k].shortName == shortName
    ensures GetBoardByShortName(s, shortName).Some? ==>
              && GetBoardByShortName(s, shortName).value.board.shortName == shortName
              && forall k :: k in s.boards && s.boards[k].shortName == shortName ==> k == shortName
  {
  }

  /** Board rows by short name. */
  predicate ShortNameLe(a: Board, b: Board) {
    LexLe(a.shortName, b.shortName)
  }

  /** The values of a map, each once per key, sorted by `le`. */
  method SortedValues<K, V(!new)>(m: map<K, V>, le: (V, V) -> bool) returns (r: seq<V>)
    requires TotalPreorder(le)
    ensures Sorted(r, le)
    ensures |r| == |m|
    ensures forall k :: k in m ==> m[k] in r
    ensures forall x :: x in r ==> exists k :: k in m && x == m[k]
  {
    r := [];
    var todo := m.Keys;
    ghost var done: set<K> := {};
    while todo != {}
      invariant todo + done == m.Keys && todo !! done
      invariant |r| == |done|
      invariant Sorted(r, le)
      invariant forall k :: k in done ==> m[k] in r
      invariant forall x :: x in r ==> exists k :: k in done && x == m[k]
      decreases |todo|
    {
      var k :| k in todo;
      var v := m[k];
      var r' := Insert(v, r, le);
      InsertMembers(v, r, le);
      forall x | x in r' ensures exists j :: j in done + {k} && x == m[j] {
        if x != v {
          var j :| j in done && x == m[j];
          assert j in done + {k};
        }
      }
      r := r';
      todo := todo - {k};
      done := done + {k};
    }
  }

  /** `getAllBoards`: every board once, ordered by short name, with its thread count. */
  method GetAllBoards(s: Store) returns (r: seq<BoardWithCount>)
    ensures Sorted(r, ByShortName)
    ensures |r| == |s.boards|
    ensures forall k :: k in s.boards ==> WithCount(s, s.boards[k]) in r
    ensures forall x :: x in r ==> exists k :: k in s.boards && x == WithCount(s, s.boards[k])
  {
    forall a: Board, b: Board ensures ShortNameLe(a, b) || ShortNameLe(b, a) {
      LexLeTotal(a.shortName, b.shortName);
    }
    forall a: Board, b: Board, c: Board | ShortNameLe(a, b) && ShortNameLe(b, c) ensures ShortNameLe(a, c) {
      LexLeTransitive(a.shortName, b.shortName, c.shortName);
    }
    var boards := SortedValues(s.boards, ShortNameLe);
    var count := (b: Board) => WithCount(s, b);
    r := MapSeq(boards, count);
    MapCovers(s.boards, boards, count);
  }

  /** The store's answer to a write. */
  datatype BoardWrite =
    | Written(store: Store, board: Board)
      /** P2002: the short name is taken */
    | UniqueViolation
      /** P2025: no board with that short name */
    | RecordNotFound

  /** `createBoard` */
  function CreateBoard(s: Store, input: CreateBoardInput): (r: BoardWrite)
    ensures !r.RecordNotFound?
    ensures r.UniqueViolation? <==> input.shortName in s.boards
    ensures r.Written? ==>
              && r.board.shortName == input.shortName && r.board.name == input.name
              && r.board.description == input.description
              && r.store.boards == s.boards[input.shortName := r.board]
              && r.store.threads == s.threads && r.store.replies == s.replies
    ensures r.Written? && Valid(s) ==>
              && Valid(r.store)
              && forall k :: k in s.boards ==> s.boards[k].id != r.board.id
  {
    if input.shortName in s.boards then UniqueViolation
    else
      var b := Board(s.nextBoardId, input.shortName, input.name, input.description);
      Written(s.(boards := s.boards[input.shortName := b], nextBoardId := s.nextBoardId + 1), b)
  }

  /** The `data` object of an update: the Board columns it names. */
  datatype BoardPatch = BoardPatch(shortName: Option<string>, name: Option<string>, description: Option<string>)

  /** Sets the columns the patch names and keeps the others. */
  function Patched(b: Board, p: BoardPatch): Board {
    Board(b.id,
          if p.shortName.Some? then p.shortName.value else b.shortName,
          if p.name.Some? then p.name.value else b.name,
          if p.description.Some? then p.description else b.description)
  }

  /** The key a board has after an update. */
  function KeyAfter(shortName: string, p: BoardPatch): string {
    if p.shortName.Some? then p.shortName.value else shortName
  }

  /** `updateBoard`: `update({ where: { shortName }, data })`. */
  function UpdateBoard(s: Store, shortName: string, p: BoardPatch): (r: BoardWrite)
    ensures r.RecordNotFound? <==> shortName !in s.boards
    ensures r.UniqueViolation? <==> shortName in s.boards && KeyAfter(shortName, p) != shortName
                                    && KeyAfter(shortName, p) in s.boards
    ensures r.Written? ==>
              var before := s.boards[shortName];
              && r.board.id == before.id
              && (p.name.Some? ==> r.board.name == p.name.value)
              && (p.name.None? ==> r.board.name == before.name)
              && (p.description.Some? ==> r.board.description == p.description)
              && (p.description.None? ==> r.board.description == before.description)
              && (p.shortName.None? ==> r.board.shortName == before.shortName)
              && r.store.boards == (s.boards - {shortName})[KeyAfter(shortName, p) := r.board]
              && r.store.threads == s.threads && r.store.replies == s.replies
    ensures r.Written? && Valid(s) ==> Valid(r.store)
  {
    if shortName !in s.boards then RecordNotFound
    else
      var key := KeyAfter(shortName, p);
      if key != shortName && key in s.boards then UniqueViolation
      else
        var b := Patched(s.boards[shortName], p);
        Written(s.(boards := (s.boards - {shortName})[key := b]), b)
  }

  /** `deleteBoard`: the deleted row comes back. */
  function DeleteBoard(s: Store, shortName: string): (r: BoardWrite)
    ensures !r.UniqueViolation?
    ensures r.RecordNotFound? <==> shortName !in s.boards
    ensures r.Written? ==>
              && r.board == s.boards[shortName]
              && r.store.boards == s.boards - {shortName}
              && r.store.threads == s.threads && r.store.replies == s.replies
    ensures r.Written? && Valid(s) ==> Valid(r.store)
  {
    if shortName !in s.boards then RecordNotFound
    else Written(s.(boards := s.boards - {shortName}), s.boards[shortName])
  }

  /** A created board can be looked up under its short name with no threads
      yet, and every other lookup answers as before. */
  lemma CreateThenLookup(s: Store, input: CreateBoardInput, other: string)
    requires Valid(s) && (forall t :: t in s.threads ==> t.boardId < s.nextBoardId)
    requires CreateBoard(s, input).Written? && other != input.shortName
    ensures var s' := CreateBoard(s, input).store;
            && GetBoardByShortName(s', input.shortName) == Some(BoardWithCount(CreateBoard(s, input).board, 0))
            && GetBoardByShortName(s', other) == GetBoardByShortName(s, other)
  {
    var r := CreateBoard(s, input);
    FilterDropsAll(s.threads, (t: Thread) => t.boardId == r.board.id);
  }

  /** Deleting a board just created restores the Board table. */
  lemma CreateThenDeleteBoard(s: Store, input: CreateBoardInput)
    requires CreateBoard(s, input).Written?
    ensures DeleteBoard(CreateBoard(s, input).store, input.shortName).store.boards == s.boards
  {
  }

  /** After a delete the short name is free, and every other lookup answers as before. */
  lemma DeleteThenLookup(s: Store, shortName: string, other: string)
    requires DeleteBoard(s, shortName).Written? && other != shortName
    ensures var s' := DeleteBoard(s, shortName).store;
            && GetBoardByShortName(s', shortName).None?
            && GetBoardByShortName(s', other) == GetBoardByShortName(s, other)
  {
  }

  /** An update whose data names no short name keeps every key, and changes
      nothing but the updated board's name and description. */
  lemma UpdateKeepsKeys(s: Store, shortName: string, p: BoardPatch, other: string)
    requires p.shortName.None? && shortName in s.boards && other != shortName
    ensures var r := UpdateBoard(s, shortName, p);
            && r.Written?
            && r.store.boards.Keys == s.boards.Keys
            && r.board.shortName == s.boards[shortName].shortName
            && GetBoardByShortName(r.store, other) == GetBoardByShortName(s, other)
  {
  }
}

=== FILE: board_validators.dfy ===
/**
  The request schemas of the board routes: a short name of one to ten ASCII
  letters and digits, a display name of one to one hundred characters, and an
  optional description. The update schema has no short name.
 */
module BoardValidators {
  import opened Common

  const MaxShortNameLength: nat := 10
  const MinNameLength: nat := 1
  const MaxNameLength: nat := 100

  /** A board JSON body as it arrives: every field may be missing, and a body
      may carry fields its schema does not name. */
  datatype RawBoardBody = RawBoardBody(shortName: Option<string>, name: Option<string>, description: Option<string>)

  datatype CreateBoardInput = CreateBoardInput(shortName: string, name: string, description: Option<string>)

  datatype UpdateBoardInput = UpdateBoardInput(name: Option<string>, description: Option<string>)

  /** The character class `[a-zA-Z0-9]`. */
  predicate IsAsciiAlnum(c: char) {
    ('a' <= c <= 'z') || ('A' <= c <= 'Z') || ('0' <= c <= '9')
  }

  /** `z.string().min(1).max(10).regex(/^[a-zA-Z0-9]+$/)` */
  predicate ValidShortName(s: string) {
    && 1 <= |s| <= MaxShortNameLength
    && forall i :: 0 <= i < |s| ==> IsAsciiAlnum(s[i])
  }

  /** `z.string().min(1).max(100)` */
  predicate ValidName(s: string) {
    MinNameLength <= |s| <= MaxNameLength
  }

  /** The check as a scan of the string, one character at a time. */
  method CheckShortName(s: string) returns (ok: bool)
    ensures ok <==> ValidShortName(s)
  {
    if |s| < 1 || |s| > MaxShortNameLength {
      return false;
    }
    var i := 0;
    while i < |s|
      invariant 0 <= i <= |s|
      invariant forall j :: 0 <= j < i ==> IsAsciiAlnum(s[j])
    {
      if !IsAsciiAlnum(s[i]) {
        return false;
      }
      i := i + 1;
    }
    return true;
  }

  /** `createBoardSchema.body`: the accepted fields pass through unchanged. */
  function ParseCreateBoard(b: RawBoardBody): (r: Option<CreateBoardInput>)
    ensures r.Some? <==> b.shortName.Some? && ValidShortName(b.shortName.value)
                         && b.name.Some? && ValidName(b.name.value)
    ensures r.Some? ==> r.value == CreateBoardInput(b.shortName.value, b.name.value, b.description)
  {
    if b.shortName.Some? && ValidShortName(b.shortName.value) && b.name.Some? && ValidName(b.name.value)
    then Some(CreateBoardInput(b.shortName.value, b.name.value, b.description))
    else None
  }

  /** `updateBoardSchema.body`: a present name must be valid; a short name in
      the body is not part of the schema and is dropped from the parsed value. */
  function ParseUpdateBoard(b: RawBoardBody): (r: Option<UpdateBoardInput>)
    ensures r.Some? <==> b.name.None? || ValidName(b.name.value)
    ensures r.Some? ==> r.value == UpdateBoardInput(b.name, b.description)
  {
    if b.name.None? || ValidName(b.name.value) then Some(UpdateBoardInput(b.name, b.description)) else None
  }

  /** The update schema neither looks at nor keeps a short name: bodies that
      differ only in it are accepted alike and parse to the same value. */
  lemma UpdateIgnoresShortName(b: RawBoardBody, other: Option<string>)
    ensures ParseUpdateBoard(b) == ParseUpdateBoard(b.(shortName := other))
  {
  }
}

=== FILE: common.dfy ===
/**
  Small vocabulary shared by every module of the model: optional values,
  JavaScript truthiness of the values the handlers test with `||` and `?:`,
  and the code-point order on strings used for `orderBy: { shortName: 'asc' }`.
 */
module Common {

  /** An optional value: `undefined`/`null` in the source is `None`. */
  datatype Option<+T> = None | Some(value: T)

  /** `x || d` on an optional string: absent and empty strings are falsy. */
  predicate Truthy(s: Option<string>) {
    s.Some? && s.value != ""
  }

  /** `s || d` on an optional string. */
  function StringOr(s: Option<string>, d: string): string {
    if Truthy(s) then s.value else d
  }

  /** `x || d` on a number: 0 is the only falsy integer (NaN is not modelled). */
  function IntOr(x: int, d: int): int {
    if x != 0 then x else d
  }

  function Min(a: int, b: int): int {
    if a <= b then a else b
  }

  function Max(a: int, b: int): int {
    if a >= b then a else b
  }

  /** Lexicographic order on code points (the "C" collation). */
  predicate LexLe(a: string, b: string)
    decreases |a|
  {
    if |a| == 0 then true
    else if |b| == 0 then false
    else if a[0] != b[0] then a[0] < b[0]
    else LexLe(a[1..], b[1..])
  }

  lemma {:induction false} LexLeTotal(a: string, b: string)
    ensures LexLe(a, b) || LexLe(b, a)
    decreases |a|
  {
    if |a| > 0 && |b| > 0 && a[0] == b[0] {
      LexLeTotal(a[1..], b[1..]);
    }
  }

  lemma {:induction false} LexLeTransitive(a: string, b: string, c: string)
    requires LexLe(a, b) && LexLe(b, c)
    ensures LexLe(a, c)
    decreases |a|
  {
    if |a| > 0 && |b| > 0 && |c| > 0 && a[0] == b[0] && b[0] == c[0] {
      LexLeTransitive(a[1..], b[1..], c[1..]);
    }
  }
}

=== FILE: http.dfy ===
/**
  Responses and the error-handling middleware: the fallback for requests no
  route matched, and the last handler of the chain, which turns any error
  passed to `next(error)` into a status code and a JSON body.
 */
module Http {
  import opened Common

  const Ok: int := 200
  const Created: int := 201
  const NoContent: int := 204
  const BadRequest: int := 400
  const Forbidden: int := 403
  const NotFound: int := 404
  const Conflict: int := 409
  const InternalServerError: int := 500

  const UnexpectedMessage: string := "An unexpected error occurred."
  const RouteNotFoundPrefix: string := "Route not found: "

  /** The value `NODE_ENV` takes when it is not set. */
  const Development: string := "development"

  /** An `Error` with the optional `statusCode` and `isOperational` fields the
      handlers and libraries may set. */
  datatype ErrorRecord = ErrorRecord(message: string, statusCode: Option<int>, isOperational: Option<bool>, stack: string)

  /** What a request handler does: answer with a status and a body, or pass an
      error on with `next(error)`. */
  datatype Handled<B> = Respond(status: int, body: B) | Raise(err: ErrorRecord)

  /** The development-only part of an error body. */
  datatype Debug = Debug(stack: string, details: ErrorRecord)

  datatype ErrorBody = ErrorBody(message: string, debug: Option<Debug>)

  datatype ErrorResponse = ErrorResponse(status: int, body: ErrorBody)

  /** `routeNotFoundHandler`: the error for a request no route matched. */
  function RouteNotFound(verb: string, url: string, stack: string): ErrorRecord {
    ErrorRecord(RouteNotFoundPrefix + verb + " " + url, Some(NotFound), None, stack)
  }

  /** `err.statusCode || 500`: a missing or zero status becomes 500. */
  function StatusOf(err: ErrorRecord): int {
    if err.statusCode.Some? then IntOr(err.statusCode.value, InternalServerError) else InternalServerError
  }

  /** Whether the client may see the error's own message: operational errors
      and client errors (status below 500) are shown. */
  predicate Exposed(err: ErrorRecord) {
    err.isOperational == Some(true) || StatusOf(err) < 500
  }

  /** `generalErrorHandler` under the given `NODE_ENV`. */
  function GeneralErrorHandler(err: ErrorRecord, nodeEnv: string): (r: ErrorResponse)
    ensures r.status != 0
    ensures err.statusCode.Some? && err.statusCode.value != 0 ==> r.status == err.statusCode.value
    ensures err.statusCode.None? || err.statusCode == Some(0) ==> r.status == InternalServerError
    ensures err.isOperational == Some(true) || r.status < 500 ==> r.body.message == err.message
    ensures err.isOperational != Some(true) && r.status >= 500 ==> r.body.message == UnexpectedMessage
    ensures r.body.debug.Some? <==> nodeEnv == Development
    ensures r.body.debug.Some? ==> r.body.debug.value == Debug(err.stack, err)
  {
    var status := StatusOf(err);
    var message := if Exposed(err) then err.message else UnexpectedMessage;
    ErrorResponse(status, ErrorBody(message, if nodeEnv == Development then Some(Debug(err.stack, err)) else None))
  }

  /** A request no route matches ends as a 404 that names the method and URL. */
  lemma RouteNotFoundResponse(verb: string, url: string, stack: string, nodeEnv: string)
    ensures var r := GeneralErrorHandler(RouteNotFound(verb, url, stack), nodeEnv);
            && r.status == NotFound
            && r.body.message[..|RouteNotFoundPrefix|] == RouteNotFoundPrefix
            && r.body.message[|RouteNotFoundPrefix|..] == verb + " " + url
  {
    var m := RouteNotFoundPrefix + verb + " " + url;
    assert m == RouteNotFoundPrefix + (verb + " " + url);
  }

  /** Outside development, the message of an unexposed error never reaches the
      client: two such errors with the same status get the same response. */
  lemma UnexposedMessagesDoNotLeak(e1: ErrorRecord, e2: ErrorRecord, nodeEnv: string)
    requires nodeEnv != Development
    requires e1.statusCode == e2.statusCode && e1.isOperational == e2.isOperational
    requires !Exposed(e1)
    ensures GeneralErrorHandler(e1, nodeEnv) == GeneralErrorHandler(e2, nodeEnv)
  {
  }

  /** What goes back to the client: a handler's own body, or an error body. */
  datatype SentBody<B> = Payload(payload: B) | Failure(error: ErrorBody)

  datatype Sent<B> = Sent(status: int, body: SentBody<B>)

  /** The end of the middleware chain: a raised error goes through the general
      error handler; an answer is sent as it is. */
  function Settle<B>(h: Handled<B>, nodeEnv: string): (r: Sent<B>)
    ensures h.Respond? ==> r == Sent(h.status, Payload(h.body))
    ensures h.Raise? ==> r.status != 0 && r.body.Failure?
    ensures h.Raise? ==> r.status == StatusOf(h.err)
    ensures h.Raise? && !Exposed(h.err) ==> r.body.error.message == UnexpectedMessage
  {
    match h
    case Respond(status, body) => Sent(status, Payload(body))
    case Raise(err) =>
      var e := GeneralErrorHandler(err, nodeEnv);
      Sent(e.status, Failure(e.body))
  }
}

=== FILE: image_service.dfy ===
/**
  The media bookkeeping of the image service: the names under which an
  upload and its thumbnail are stored, and best-effort removal of both.
  The upload and thumbnail directories are a set of paths; the resizing
  itself belongs to the image library and only its metadata read is seen.
 */
module ImageService {
  import opened Common

  datatype Dir = ImageDir | ThumbnailDir

  datatype Path = Path(dir: Dir, name: string)

  /** An upload as the multipart middleware hands it over: already written
      to the image directory under `filename`. */
  datatype UploadedFile = UploadedFile(originalname: string, filename: string, mimetype: string, size: nat)

  /** What the image library reports; either dimension may be missing. */
  datatype ImageMetadata = ImageMetadata(width: Option<int>, height: Option<int>)

  datatype ProcessedImage = ProcessedImage(
    imageFilenameStored: string,
    thumbnailFilenameStored: string,
    imageMimetype: string,
    imageFilesizeBytes: int,
    imageWidth: int,
    imageHeight: int)

  /** The result of processing: the image description and the media files afterwards. */
  datatype Stored = Stored(image: ProcessedImage, files: set<Path>)

  const ThumbnailPrefix: string := "thumb_"

  function ThumbnailName(stored: string): string {
    ThumbnailPrefix + stored
  }

  /** The stored image name a thumbnail name was derived from, if it is one. */
  function StoredNameOf(thumbnail: string): Option<string> {
    if |thumbnail| >= |ThumbnailPrefix| && thumbnail[..|ThumbnailPrefix|] == ThumbnailPrefix
    then Some(thumbnail[|ThumbnailPrefix|..])
    else None
  }

  function ImagePath(name: string): Path {
    Path(ImageDir, name)
  }

  function ThumbnailPath(name: string): Path {
    Path(ThumbnailDir, name)
  }

  /** The thumbnail name determines the image it was made from. */
  lemma ThumbnailNameRoundTrip(stored: string)
    ensures StoredNameOf(ThumbnailName(stored)) == Some(stored)
    ensures ThumbnailName(stored) != stored
  {
    assert (ThumbnailPrefix + stored)[..|ThumbnailPrefix|] == ThumbnailPrefix;
    assert (ThumbnailPrefix + stored)[|ThumbnailPrefix|..] == stored;
  }

  lemma ThumbnailNameInjective(a: string, b: string)
    requires ThumbnailName(a) == ThumbnailName(b)
    ensures a == b
  {
    ThumbnailNameRoundTrip(a);
    ThumbnailNameRoundTrip(b);
  }

  /** `metadata.width || 0` */
  function DimensionOrZero(d: Option<int>): int {
    if d.Some? then IntOr(d.value, 0) else 0
  }

  /** The naming and pass-through part of processing an upload: the thumbnail
      is written next to the stored image under the derived name. */
  function ProcessAndStoreImage(f: UploadedFile, meta: ImageMetadata, files: set<Path>): (r: Stored)
    ensures r.image.imageFilenameStored == f.filename
    ensures StoredNameOf(r.image.thumbnailFilenameStored) == Some(f.filename)
    ensures r.image.imageMimetype == f.mimetype && r.image.imageFilesizeBytes == f.size
    ensures meta.width.Some? ==> r.image.imageWidth == meta.width.value
    ensures meta.height.Some? ==> r.image.imageHeight == meta.height.value
    ensures meta.width.None? ==> r.image.imageWidth == 0
    ensures meta.height.None? ==> r.image.imageHeight == 0
    ensures r.files == files + {ThumbnailPath(r.image.thumbnailFilenameStored)}
  {
    ThumbnailNameRoundTrip(f.filename);
    var thumbnail := ThumbnailName(f.filename);
    Stored(
      ProcessedImage(f.filename, thumbnail, f.mimetype, f.size,
                     DimensionOrZero(meta.width), DimensionOrZero(meta.height)),
      files + {ThumbnailPath(thumbnail)})
  }

  /** `fs.unlink`: `None` when it throws, because the file is absent or the
      file system reports an error (`faults`) for that path. */
  function Unlink(files: set<Path>, faults: set<Path>, p: Path): Option<set<Path>> {
    if p in files && p !in faults then Some(files - {p}) else None
  }

  /** The paths a call asks to remove: null and empty names are skipped. */
  function RequestedPaths(image: Option<string>, thumbnail: Option<string>): set<Path> {
    (if Truthy(image) then {ImagePath(image.value)} else {})
    + (if Truthy(thumbnail) then {ThumbnailPath(thumbnail.value)} else {})
  }

  /** Best-effort removal of an image and its thumbnail. Both unlinks sit in
      one guarded block whose error is swallowed: a failing image unlink
      skips the thumbnail, and no failure reaches the caller. */
  function DeleteImageFiles(files: set<Path>, faults: set<Path>, image: Option<string>, thumbnail: Option<string>): (r: set<Path>)
    ensures r <= files
    ensures files - r <= RequestedPaths(image, thumbnail)
    ensures Truthy(image) && Unlink(files, faults, ImagePath(image.value)).None? ==> r == files
    ensures Truthy(image) && Unlink(files, faults, ImagePath(image.value)).Some? ==> ImagePath(image.value) !in r
    ensures && Truthy(thumbnail) && ThumbnailPath(thumbnail.value) in files && ThumbnailPath(thumbnail.value) !in faults
            && (!Truthy(image) || Unlink(files, faults, ImagePath(image.value)).Some?)
            ==> ThumbnailPath(thumbnail.value) !in r
    ensures (forall p :: p in RequestedPaths(image, thumbnail) ==> p in files && p !in faults)
            ==> r == files - RequestedPaths(image, thumbnail)
  {
    var afterImage := if Truthy(image) then Unlink(files, faults, ImagePath(image.value)) else Some(files);
    match afterImage
    case None => files
    case Some(rest) =>
      if Truthy(thumbnail) then
        match Unlink(rest, faults, ThumbnailPath(thumbnail.value))
        case None => rest
        case Some(left) => left
      else rest
  }
}

=== FILE: passwords.dfy ===
/**
  The password hashing library, seen from its callers: a one-way `hash`
  and a `verify` that accepts a password against a hash made from it.
  Salting and the work factor live inside the two functions, which the
  model receives as parameters.
 */
module Passwords {

  datatype Hasher = Hasher(hash: string -> string, verify: (string, string) -> bool)

  /** What every caller relies on: a password verifies against its own hash,
      and a hash is never the empty string. */
  ghost predicate Sound(h: Hasher) {
    forall p :: h.verify(p, h.hash(p)) && h.hash(p) != ""
  }
}

=== FILE: seqs.dfy ===
/**
  Ordered queries over a table held as a sequence: filtering (`where`),
  stable sorting (`orderBy`) and windows (`skip`/`take`).
  The sort is a functional insertion sort, proved to return a sorted
  permutation of its input for any total preorder.
 */
module Seqs {
  import opened Common

  /** `le` is total and transitive: an `orderBy` key comparison. */
  ghost predicate TotalPreorder<T(!new)>(le: (T, T) -> bool) {
    && (forall a, b :: le(a, b) || le(b, a))
    && (forall a, b, c :: le(a, b) && le(b, c) ==> le(a, c))
  }

  predicate Sorted<T>(s: seq<T>, le: (T, T) -> bool) {
    forall i, j :: 0 <= i < j < |s| ==> le(s[i], s[j])
  }

  /** The rows of `s` satisfying `p`, in their original order (`where`). */
  function Filter<T(!new)>(s: seq<T>, p: T -> bool): (r: seq<T>)
    ensures |r| <= |s|
    ensures forall x :: x in r <==> x in s && p(x)
    ensures multiset(r) <= multiset(s)
  {
    if |s| == 0 then []
    else
      assert s == [s[0]] + s[1..];
      if p(s[0]) then [s[0]] + Filter(s[1..], p)
      else Filter(s[1..], p)
  }

  /** Inserts `x` before the first element it may precede. */
  function Insert<T(!new)>(x: T, s: seq<T>, le: (T, T) -> bool): (r: seq<T>)
    requires TotalPreorder(le)
    ensures multiset(r) == multiset(s) + multiset{x}
    ensures |r| == |s| + 1
    ensures Sorted(s, le) ==> Sorted(r, le)
  {
    if |s| == 0 then [x]
    else if le(x, s[0]) then [x] + s
    else
      assert s == [s[0]] + s[1..];
      var tail := Insert(x, s[1..], le);
      InsertBehindHead(x, s, tail, le);
      [s[0]] + tail
  }

  /** When `x` goes behind the head of `s`, the head still precedes the rest. */
  lemma InsertBehindHead<T(!new)>(x: T, s: seq<T>, tail: seq<T>, le: (T, T) -> bool)
    requires TotalPreorder(le) && |s| > 0 && !le(x, s[0])
    requires multiset(tail) == multiset(s[1..]) + multiset{x}
    requires Sorted(s[1..], le) ==> Sorted(tail, le)
    ensures Sorted(s, le) ==> Sorted([s[0]] + tail, le)
  {
    if Sorted(s, le) {
      forall e | e in tail ensures le(s[0], e) {
        assert e in multiset(tail);
        if e != x {
          assert e in s[1..];
        }
      }
      ConsSorted(s[0], tail, le);
    }
  }

  /** Putting `h` in front of a sorted sequence whose elements all follow it keeps it sorted. */
  lemma ConsSorted<T>(h: T, s: seq<T>, le: (T, T) -> bool)
    requires Sorted(s, le)
    requires forall e :: e in s ==> le(h, e)
    ensures Sorted([h] + s, le)
  {
    var r := [h] + s;
    forall i, j | 0 <= i < j < |r| ensures le(r[i], r[j]) {
      if i == 0 {
        assert r[j] == s[j - 1];
      } else {
        assert r[i] == s[i - 1] && r[j] == s[j - 1];
      }
    }
  }

  /** Sorts `s` by `le`; elements `le` cannot tell apart keep their order. */
  function Sort<T(!new)>(s: seq<T>, le: (T, T) -> bool): (r: seq<T>)
    requires TotalPreorder(le)
    ensures multiset(r) == multiset(s)
    ensures |r| == |s|
    ensures Sorted(r, le)
  {
    if |s| == 0 then []
    else
      assert s == [s[0]] + s[1..];
      Insert(s[0], Sort(s[1..], le), le)
  }

  /** `skip` then `take`: the elements of `s` at positions skip .. skip+take-1. */
  function Window<T>(s: seq<T>, skip: nat, take: nat): (r: seq<T>)
    ensures |r| == Min(take, Max(0, |s| - skip))
    ensures forall i :: 0 <= i < |r| ==> r[i] == s[skip + i]
  {
    if skip >= |s| then []
    else s[skip..Min(skip + take, |s|)]
  }

  /** Applies `f` to every element. */
  function MapSeq<T, U>(s: seq<T>, f: T -> U): (r: seq<U>)
    ensures |r| == |s|
    ensures forall i :: 0 <= i < |s| ==> r[i] == f(s[i])
  {
    if |s| == 0 then [] else [f(s[0])] + MapSeq(s[1..], f)
  }

  /** A window holds some of the sequence's elements, each no more often
      than the sequence does. */
  lemma WindowWithin<T>(s: seq<T>, skip: nat, take: nat)
    ensures multiset(Window(s, skip, take)) <= multiset(s)
  {
    if skip < |s| {
      var end := Min(skip + take, |s|);
      assert s == s[..skip] + s[skip..end] + s[end..];
    }
  }

  /** A sorted sequence stays sorted when cut into a window. */
  lemma WindowSorted<T>(s: seq<T>, le: (T, T) -> bool, skip: nat, take: nat)
    requires Sorted(s, le)
    ensures Sorted(Window(s, skip, take), le)
  {
  }

  /** Consecutive windows of width `take` tile the sequence. */
  lemma {:induction false} WindowsTile<T>(s: seq<T>, take: nat, n: nat)
    requires take >= 1
    ensures Tiles(s, take, n) == s[..Min(Stride(n, take), |s|)]
  {
    if n > 0 {
      WindowsTile(s, take, n - 1);
      TileStep(s, take, n - 1);
    }
  }

  /** One more window extends the covered prefix by `take` elements. */
  lemma TileStep<T>(s: seq<T>, take: nat, k: nat)
    ensures s[..Min(Stride(k, take), |s|)] + Window(s, Stride(k, take), take)
            == s[..Min(Stride(k + 1, take), |s|)]
  {
    var lo := Min(Stride(k, take), |s|);
    var hi := Min(Stride(k + 1, take), |s|);
    var w := Window(s, Stride(k, take), take);
    assert |w| == hi - lo;
    assert forall i :: 0 <= i < |w| ==> w[i] == s[lo..hi][i];
    assert w == s[lo..hi];
    assert s[..lo] + s[lo..hi] == s[..hi];
  }

  /** Where the `k`-th window of width `take` starts (counting from 0): `k * take`,
      spelled out as repeated addition. */
  function Stride(k: nat, take: nat): nat {
    if k == 0 then 0 else Stride(k - 1, take) + take
  }

  lemma {:induction false} StrideIsProduct(k: nat, take: nat)
    ensures Stride(k, take) == k * take
  {
    if k > 0 {
      StrideIsProduct(k - 1, take);
      assert (k - 1) * take + take == k * take;
    }
  }

  lemma {:induction false} StrideMonotone(a: nat, b: nat, take: nat)
    requires a <= b
    ensures Stride(a, take) <= Stride(b, take)
    decreases b
  {
    if a < b {
      StrideMonotone(a, b - 1, take);
    }
  }

  /** The concatenation of the first `n` windows of width `take`. */
  function Tiles<T>(s: seq<T>, take: nat, n: nat): seq<T>
  {
    if n == 0 then [] else Tiles(s, take, n - 1) + Window(s, Stride(n - 1, take), take)
  }

  /** The rows one after another: `rows[0] + rows[1] + ...`. */
  function Flatten<T>(rows: seq<seq<T>>): seq<T> {
    if |rows| == 0 then [] else Flatten(rows[..|rows| - 1]) + rows[|rows| - 1]
  }

  /** Rows that are the successive windows of `s` flatten to its tiling. */
  lemma {:induction false} FlattenWindows<T>(rows: seq<seq<T>>, s: seq<T>, take: nat)
    requires forall k {:trigger rows[k]} :: 0 <= k < |rows| ==> rows[k] == Window(s, Stride(k, take), take)
    ensures Flatten(rows) == Tiles(s, take, |rows|)
  {
    if |rows| > 0 {
      FlattenWindows(rows[..|rows| - 1], s, take);
    }
  }

  /** In a sorted sequence, whatever is left out of a leading window is ordered
      after everything inside it. */
  lemma WindowPrecedesRest<T>(s: seq<T>, le: (T, T) -> bool, take: nat, x: T, y: T)
    requires Sorted(s, le)
    requires x in s && x !in Window(s, 0, take)
    requires y in Window(s, 0, take)
    ensures le(y, x)
  {
    var w := Window(s, 0, take);
    var k :| 0 <= k < |s| && s[k] == x;
    var j :| 0 <= j < |w| && w[j] == y;
    assert forall i :: 0 <= i < |w| ==> s[i] in w;
    assert s[j] == y;
  }

  lemma {:induction false} FilterConcat<T(!new)>(a: seq<T>, b: seq<T>, p: T -> bool)
    ensures Filter(a + b, p) == Filter(a, p) + Filter(b, p)
  {
    if |a| > 0 {
      assert (a + b)[1..] == a[1..] + b;
      FilterConcat(a[1..], b, p);
    } else {
      assert a + b == b;
    }
  }

  lemma {:induction false} FilterKeepsAll<T(!new)>(s: seq<T>, p: T -> bool)
    requires forall x :: x in s ==> p(x)
    ensures Filter(s, p) == s
  {
    if |s| > 0 {
      assert s == [s[0]] + s[1..];
      FilterKeepsAll(s[1..], p);
    }
  }

  lemma {:induction false} FilterDropsAll<T(!new)>(s: seq<T>, p: T -> bool)
    requires forall x :: x in s ==> !p(x)
    ensures Filter(s, p) == []
  {
    if |s| > 0 {
      assert s == [s[0]] + s[1..];
      FilterDropsAll(s[1..], p);
    }
  }

  /** Inserting adds exactly the inserted element. */
  lemma InsertMembers<T(!new)>(x: T, s: seq<T>, le: (T, T) -> bool)
    requires TotalPreorder(le)
    ensures forall y :: y in Insert(x, s, le) <==> y in s || y == x
  {
    var r := Insert(x, s, le);
    forall y ensures y in r <==> y in s || y == x {
      assert y in r <==> y in multiset(r);
      assert y in s <==> y in multiset(s);
    }
  }

  /** Mapping a sequence that holds exactly the values of a map gives exactly
      the images of those values. */
  lemma MapCovers<K, V, U>(m: map<K, V>, vs: seq<V>, f: V -> U)
    requires forall k :: k in m ==> m[k] in vs
    requires forall x :: x in vs ==> exists k :: k in m && x == m[k]
    ensures forall k :: k in m ==> f(m[k]) in MapSeq(vs, f)
    ensures forall y :: y in MapSeq(vs, f) ==> exists k :: k in m && y == f(m[k])
  {
    var r := MapSeq(vs, f);
    forall k | k in m ensures f(m[k]) in r {
      var i :| 0 <= i < |vs| && vs[i] == m[k];
      assert r[i] == f(m[k]);
    }
    forall y | y in r ensures exists k :: k in m && y == f(m[k]) {
      var i :| 0 <= i < |r| && r[i] == y;
      assert vs[i] in vs;
      var k :| k in m && vs[i] == m[k];
      assert y == f(m[k]);
    }
  }
}

=== FILE: store.dfy ===
/**
  The relational store the services talk to, as an immutable value:
  the Board table keyed by its unique `shortName`, and the Thread and
  Reply tables as sequences of rows in insertion order. The autoincrement
  ids come from counters kept in the store; the `now()` timestamps are
  supplied by the callers of the transition functions.
 */
module Store {
  import opened Common
  import opened Seqs

  datatype Board = Board(id: nat, shortName: string, name: string, description: Option<string>)

  datatype Thread = Thread(
    id: nat,
    boardId: nat,
    subject: Option<string>,
    comment: string,
    posterName: string,
    imageOriginalFilename: string,
    imageFilenameStored: string,
    imageMimetype: string,
    imageFilesizeBytes: int,
    imageWidth: int,
    imageHeight: int,
    thumbnailFilenameStored: string,
    ipAddress: Option<string>,
    deletionPasswordHash: Option<string>,
    createdAt: int,
    lastBumpedAt: int)

  /** A reply; `parentReplyId` is the self-relation behind `childReplies`. */
  datatype Reply = Reply(
    id: nat,
    threadId: nat,
    parentReplyId: Option<nat>,
    content: string,
    imageFilenameStored: Option<string>,
    thumbnailFilenameStored: Option<string>,
    createdAt: int)

  datatype Store = Store(
    boards: map<string, Board>,
    threads: seq<Thread>,
    replies: seq<Reply>,
    nextBoardId: nat,
    nextThreadId: nat)

  /** The constraints the database schema keeps: unique keys and fresh ids. */
  ghost predicate Valid(s: Store) {
    && (forall k :: k in s.boards ==> s.boards[k].shortName == k && s.boards[k].id < s.nextBoardId)
    && (forall k1, k2 :: k1 in s.boards && k2 in s.boards && s.boards[k1].id == s.boards[k2].id ==> k1 == k2)
    && (forall t :: t in s.threads ==> t.id < s.nextThreadId)
    && UniqueThreadIds(s.threads)
  }

  ghost predicate UniqueThreadIds(threads: seq<Thread>) {
    forall t1, t2 :: t1 in threads && t2 in threads && t1.id == t2.id ==> t1 == t2
  }

  /** `where: { boardId }` on the Thread table. */
  function ThreadsOf(s: Store, boardId: nat): seq<Thread> {
    Filter(s.threads, (t: Thread) => t.boardId == boardId)
  }

  /** `where: { threadId }` on the Reply table. */
  function RepliesOf(s: Store, threadId: nat): seq<Reply> {
    Filter(s.replies, (r: Reply) => r.threadId == threadId)
  }

  /** The `childReplies` relation of a reply. */
  function ChildrenOf(s: Store, replyId: nat): seq<Reply> {
    Filter(s.replies, (r: Reply) => r.parentReplyId == Some(replyId))
  }

  /** `findFirst({ where: { id, boardId } })`: the first matching row, if any. */
  function FindThread(threads: seq<Thread>, id: int, boardId: nat): (r: Option<Thread>)
    ensures r.Some? ==> r.value in threads && r.value.id == id && r.value.boardId == boardId
    ensures r.None? <==> forall t :: t in threads ==> !(t.id == id && t.boardId == boardId)
  {
    if |threads| == 0 then None
    else if threads[0].id == id && threads[0].boardId == boardId then Some(threads[0])
    else
      assert threads == [threads[0]] + threads[1..];
      FindThread(threads[1..], id, boardId)
  }

  /** `delete({ where: { id } })` on the Thread table. */
  function RemoveThread(threads: seq<Thread>, id: nat): seq<Thread> {
    Filter(threads, (t: Thread) => t.id != id)
  }
}

=== FILE: thread_controller.dfy ===
/**
  The thread handlers: they call the thread service, map its outcomes to
  status codes, add media URLs to what they return, and keep the media
  directories in step with the Thread table. The application state is the
  store together with the set of stored media files.

  Everything a handler receives from outside — the image library's metadata,
  the password hasher, the clock, the client address, and any exception a
  library call raises — is an explicit parameter.
 */
module ThreadController {
  import opened Common
  import opened Seqs
  import opened Store
  import opened Passwords
  import opened ImageService
  import opened ThreadService
  import opened Http
  import opened ThreadValidators

  /** The store and the media directories together. */
  datatype World = World(store: Store, files: set<Path>)

  // ------------------------------------------------------------------ URLs

  const ImagesRoute: string := "/uploads/images/"
  const ThumbnailsRoute: string := "/uploads/thumbnails/"

  function ImageUrl(baseUrl: string, name: string): string {
    baseUrl + ImagesRoute + name
  }

  function ThumbnailUrl(baseUrl: string, name: string): string {
    baseUrl + ThumbnailsRoute + name
  }

  /** The stored name can be read back from an image URL, and an image URL is
      never a thumbnail URL. */
  lemma UrlsRoundTrip(baseUrl: string, name: string, other: string)
    ensures ImageUrl(baseUrl, name)[..|baseUrl + ImagesRoute|] == baseUrl + ImagesRoute
    ensures ImageUrl(baseUrl, name)[|baseUrl + ImagesRoute|..] == name
    ensures ThumbnailUrl(baseUrl, name)[|baseUrl + ThumbnailsRoute|..] == name
    ensures ImageUrl(baseUrl, name) != ThumbnailUrl(baseUrl, other)
  {
    var i := ImageUrl(baseUrl, name);
    var t := ThumbnailUrl(baseUrl, other);
    assert i == baseUrl + (ImagesRoute + name);
    assert t == baseUrl + (ThumbnailsRoute + other);
    assert i[|baseUrl| + 9] == 'i' && t[|baseUrl| + 9] == 't';
  }

  lemma ImageUrlInjective(baseUrl: string, a: string, b: string)
    requires ImageUrl(baseUrl, a) == ImageUrl(baseUrl, b)
    ensures a == b
  {
    UrlsRoundTrip(baseUrl, a, a);
    UrlsRoundTrip(baseUrl, b, b);
  }

  // ------------------------------------------------------------ responses

  const BoardNotFoundMessage: string := "Board not found"
  const ThreadNotFoundMessage: string := "Thread not found"
  const ImageRequiredMessage: string := "Image is required for a new thread"
  const PasswordRequiredMessage: string := "Deletion password is required"
  const InvalidPasswordMessage: string := "Invalid deletion password"

  datatype ListedThread = ListedThread(summary: ThreadSummary, imageUrl: string, thumbnailUrl: string)

  datatype ReplyWithUrls = ReplyWithUrls(reply: ReplyWithChildren, imageUrl: Option<string>, thumbnailUrl: Option<string>)

  datatype ThreadWithUrls = ThreadWithUrls(thread: Thread, imageUrl: string, thumbnailUrl: string, replies: seq<ReplyWithUrls>)

  datatype ThreadBody =
    | MessageBody(message: string)
    | ListBody(threads: seq<ListedThread>, pagination: Pagination)
    | DetailBody(detail: ThreadWithUrls)
    | CreatedBody(thread: Thread, imageUrl: string, thumbnailUrl: string)
    | NoBody

  /** A handler's effect on the world and its answer. */
  datatype Outcome = Outcome(world: World, response: Handled<ThreadBody>)

  /** The error the store raises for a window it refuses (a negative `skip`);
      it carries no status code, so it ends as a 500. The model also raises it
      for a negative limit, whose `take` is negative even on page 1 where
      `skip` is 0 (see `GetThreadsByBoard`). */
  const WindowError: ErrorRecord := ErrorRecord("invalid skip or take", None, None, "")

  // -------------------------------------------------------------- listing

  function WithUrls(baseUrl: string, x: ThreadSummary): ListedThread {
    ListedThread(x, ImageUrl(baseUrl, x.thread.imageFilenameStored), ThumbnailUrl(baseUrl, x.thread.thumbnailFilenameStored))
  }

  /** `value ? parseInt(value, 10) : default` on a query value that arrives
      already parsed: only a missing value takes the default. */
  function QueryOr(q: Option<int>, d: int): int {
    if q.Some? then q.value else d
  }

  /** `listThreadsHandler` */
  function ListThreadsHandler(s: Store, baseUrl: string, shortName: string, page: Option<int>, limit: Option<int>)
    : (r: Handled<ThreadBody>)
    ensures r == Respond(NotFound, MessageBody(BoardNotFoundMessage)) <==> shortName !in s.boards
    ensures r.Raise? <==> GetThreadsByBoard(s, shortName, QueryOr(page, DefaultPage), QueryOr(limit, DefaultLimit)).WindowRejected?
    ensures GetThreadsByBoard(s, shortName, QueryOr(page, DefaultPage), QueryOr(limit, DefaultLimit)).Listed?
            ==> r.Respond? && r.status == Ok
    ensures r.Respond? && r.status == Ok ==>
              var listing := GetThreadsByBoard(s, shortName, QueryOr(page, DefaultPage), QueryOr(limit, DefaultLimit));
              && listing.Listed? && r.body.ListBody?
              && r.body.pagination == listing.pagination
              && |r.body.threads| == |listing.threads|
              && forall i :: 0 <= i < |r.body.threads| ==>
                   && r.body.threads[i].summary == listing.threads[i]
                   && r.body.threads[i].imageUrl == ImageUrl(baseUrl, listing.threads[i].thread.imageFilenameStored)
                   && r.body.threads[i].thumbnailUrl == ThumbnailUrl(baseUrl, listing.threads[i].thread.thumbnailFilenameStored)
  {
    match GetThreadsByBoard(s, shortName, QueryOr(page, DefaultPage), QueryOr(limit, DefaultLimit))
    case NoSuchBoard => Respond(NotFound, MessageBody(BoardNotFoundMessage))
    case WindowRejected => Raise(WindowError)
    case Listed(threads, pagination) => Respond(Ok, ListBody(MapSeq(threads, (x: ThreadSummary) => WithUrls(baseUrl, x)), pagination))
  }

  /** Without query parameters an existing board answers with its first page
      of at most fifteen threads. */
  lemma ListWithoutQuery(s: Store, baseUrl: string, shortName: string)
    requires shortName in s.boards
    ensures var r := ListThreadsHandler(s, baseUrl, shortName, None, None);
            && r.Respond? && r.status == Ok && r.body.ListBody?
            && r.body.pagination.currentPage == 1
            && |r.body.threads| <= 15
            && |r.body.threads| == Min(15, |ThreadsOf(s, s.boards[shortName].id)|)
  {
    ListingIsPage(s, shortName, DefaultPage, DefaultLimit);
    assert Skip(1, 15) == 0;
  }

  /** A missing page or limit answers as the explicit default 1 or 15 does,
      and a present value reaches the service as it is, with no lower bound. */
  lemma ListQueryDefaults(s: Store, baseUrl: string, shortName: string, page: Option<int>, limit: Option<int>,
                          p: int, l: int)
    ensures ListThreadsHandler(s, baseUrl, shortName, None, limit)
            == ListThreadsHandler(s, baseUrl, shortName, Some(1), limit)
    ensures ListThreadsHandler(s, baseUrl, shortName, page, None)
            == ListThreadsHandler(s, baseUrl, shortName, page, Some(15))
    ensures var r := ListThreadsHandler(s, baseUrl, shortName, Some(p), Some(l));
            var listing := GetThreadsByBoard(s, shortName, p, l);
            && (r.Raise? <==> listing.WindowRejected?)
            && (listing.Listed? ==> r.Respond? && r.status == Ok)
            && (r.Respond? && r.status == Ok ==> listing.Listed? && r.body.pagination == listing.pagination)
  {
  }

  /** The listing query has no lower bound: a negative page reaches the store,
      which refuses the window, and the client sees a 500 that hides the
      store's message. */
  lemma NegativePageIsServerError(s: Store, baseUrl: string, shortName: string, page: int, nodeEnv: string)
    requires shortName in s.boards && page < 0
    ensures var r := Settle(ListThreadsHandler(s, baseUrl, shortName, Some(page), None), nodeEnv);
            && r.status == InternalServerError
            && r.body.Failure? && r.body.error.message == UnexpectedMessage
  {
  }

  // ------------------------------------------------------- single thread

  /** `reply.imageFilenameStored ? url : null` */
  function OptionalUrl(baseUrl: string, route: string, name: Option<string>): Option<string> {
    if Truthy(name) then Some(baseUrl + route + name.value) else None
  }

  function ReplyUrls(baseUrl: string, x: ReplyWithChildren): ReplyWithUrls {
    ReplyWithUrls(x, OptionalUrl(baseUrl, ImagesRoute, x.reply.imageFilenameStored),
                     OptionalUrl(baseUrl, ThumbnailsRoute, x.reply.thumbnailFilenameStored))
  }

  /** The replies of a single-thread response: a URL only for a stored name. */
  function RepliesWithUrls(baseUrl: string, replies: seq<ReplyWithChildren>): (r: seq<ReplyWithUrls>)
    ensures |r| == |replies|
    ensures forall i :: 0 <= i < |replies| ==>
              var x := r[i];
              var y := replies[i].reply;
              && x.reply == replies[i]
              && (x.imageUrl.None? <==> !Truthy(y.imageFilenameStored))
              && (x.imageUrl.Some? ==> x.imageUrl.value == ImageUrl(baseUrl, y.imageFilenameStored.value))
              && (x.thumbnailUrl.None? <==> !Truthy(y.thumbnailFilenameStored))
              && (x.thumbnailUrl.Some? ==> x.thumbnailUrl.value == ThumbnailUrl(baseUrl, y.thumbnailFilenameStored.value))
  {
    MapSeq(replies, (x: ReplyWithChildren) => ReplyUrls(baseUrl, x))
  }

  /** `getThreadHandler` */
  function GetThreadHandler(s: Store, baseUrl: string, shortName: string, id: int): (r: Handled<ThreadBody>)
    ensures r.Respond?
    ensures r.status == NotFound <==> GetThreadById(s, shortName, id).None?
    ensures r.status == NotFound ==> r.body == MessageBody(ThreadNotFoundMessage)
    ensures r.status != NotFound ==>
              var d := GetThreadById(s, shortName, id).value;
              && r.status == Ok && r.body.DetailBody?
              && r.body.detail.thread == d.thread
              && r.body.detail.imageUrl == ImageUrl(baseUrl, d.thread.imageFilenameStored)
              && r.body.detail.thumbnailUrl == ThumbnailUrl(baseUrl, d.thread.thumbnailFilenameStored)
              && r.body.detail.replies == RepliesWithUrls(baseUrl, d.replies)
  {
    match GetThreadById(s, shortName, id)
    case None => Respond(NotFound, MessageBody(ThreadNotFoundMessage))
    case Some(d) =>
      Respond(Ok, DetailBody(ThreadWithUrls(
        d.thread,
        ImageUrl(baseUrl, d.thread.imageFilenameStored),
        ThumbnailUrl(baseUrl, d.thread.thumbnailFilenameStored),
        RepliesWithUrls(baseUrl, d.replies))))
  }

  // ------------------------------------------------------------- creation

  /** An exception raised by one of the library calls of the create handler. */
  datatype Fault =
    | NoFault
      /** the image library fails to read or resize the upload */
    | ProcessingFails(err: ErrorRecord)
      /** the hasher fails; it is only called for a truthy password */
    | HashingFails(err: ErrorRecord)
      /** the store fails to look the board up; the lookup runs for every name */
    | LookupFails(err: ErrorRecord)
      /** the store fails to insert the row of an existing board */
    | InsertFails(err: ErrorRecord)

  /** What the create handler receives from its libraries and the request. */
  datatype Effects = Effects(
    meta: ImageMetadata,
    hasher: Hasher,
    now: int,
    ip: Option<string>,
    fault: Fault,
    unlinkFaults: set<Path>)

  /** Whether the fault of `fx` is raised on the way to the insert. */
  predicate FaultRaised(s: Store, shortName: string, body: CreateThreadInput, fx: Effects) {
    || fx.fault.ProcessingFails?
    || (fx.fault.HashingFails? && Truthy(body.deletionPassword))
    || fx.fault.LookupFails?
    || (fx.fault.InsertFails? && shortName in s.boards)
  }

  /** `deletionPasswordHash`: the hash of a truthy password, else nothing. */
  function PasswordHash(h: Hasher, password: Option<string>): Option<string> {
    if Truthy(password) then Some(h.hash(password.value)) else None
  }

  /** The row `createThread` receives: the body, the processed image, the
      client address and the password hash, never the password itself. */
  function RowData(body: CreateThreadInput, f: UploadedFile, image: ProcessedImage, fx: Effects): NewThread {
    NewThread(body.subject, body.comment, body.posterName, f.originalname, image,
              fx.ip, PasswordHash(fx.hasher, body.deletionPassword))
  }

  /** The files the catch block asks to remove. As written it passes only the
      uploaded image; with `removeThumbnail` it also passes the thumbnail once
      one has been written. */
  function CatchCleanup(files: set<Path>, f: UploadedFile, thumbnail: Option<string>, fx: Effects, removeThumbnail: bool)
    : set<Path>
  {
    DeleteImageFiles(files, fx.unlinkFaults, Some(f.filename), if removeThumbnail then thumbnail else None)
  }

  /** `createThreadHandler`, with the catch block's cleanup chosen by
      `removeThumbnail` (false is the code as written). */
  function CreateThreadWith(removeThumbnail: bool, w: World, baseUrl: string, shortName: string,
                            body: CreateThreadInput, file: Option<UploadedFile>, fx: Effects): (r: Outcome)
    ensures file.None? ==> r == Outcome(w, Respond(BadRequest, MessageBody(ImageRequiredMessage)))
    ensures r.response.Raise? <==> file.Some? && FaultRaised(w.store, shortName, body, fx)
    ensures r.response.Raise? ==> r.response.err == fx.fault.err
    ensures file.Some? && shortName in w.store.boards && !FaultRaised(w.store, shortName, body, fx)
            ==> r.response.Respond? && r.response.status == Created
    ensures r.response == Respond(NotFound, MessageBody(BoardNotFoundMessage))
            <==> file.Some? && shortName !in w.store.boards && !FaultRaised(w.store, shortName, body, fx)
    ensures !(r.response.Respond? && r.response.status == Created) ==> r.world.store == w.store
    ensures file.Some? ==> r.world.files <= w.files + {ThumbnailPath(ThumbnailName(file.value.filename))}
    ensures file.Some? && r.response == Respond(NotFound, MessageBody(BoardNotFoundMessage))
            && fx.unlinkFaults == {} && file.value.filename != "" && ImagePath(file.value.filename) in w.files
            ==> && ImagePath(file.value.filename) !in r.world.files
                && ThumbnailPath(ThumbnailName(file.value.filename)) !in r.world.files
    ensures file.Some? && r.response.Raise?
            && fx.unlinkFaults == {} && file.value.filename != "" && ImagePath(file.value.filename) in w.files
            ==> && ImagePath(file.value.filename) !in r.world.files
                && (removeThumbnail && ThumbnailPath(ThumbnailName(file.value.filename)) !in w.files
                    ==> ThumbnailPath(ThumbnailName(file.value.filename)) !in r.world.files)
    ensures Valid(w.store) ==> Valid(r.world.store)
    ensures r.response.Respond? && r.response.status == Created ==>
              && file.Some? && shortName in w.store.boards && !FaultRaised(w.store, shortName, body, fx)
              && var f := file.value;
              && r.response.body.CreatedBody?
              && var t := r.response.body.thread;
              && r.world.store.threads == w.store.threads + [t]
              && r.world.store.boards == w.store.boards
              && r.world.store.replies == w.store.replies
              && t.boardId == w.store.boards[shortName].id
              && t.comment == body.comment && t.subject == body.subject
              && (Truthy(body.posterName) ==> t.posterName == body.posterName.value)
              && (!Truthy(body.posterName) ==> t.posterName == AnonymousName)
              && t.deletionPasswordHash == PasswordHash(fx.hasher, body.deletionPassword)
              && t.imageOriginalFilename == f.originalname
              && t.imageMimetype == f.mimetype && t.imageFilesizeBytes == f.size
              && t.imageWidth == DimensionOrZero(fx.meta.width) && t.imageHeight == DimensionOrZero(fx.meta.height)
              && t.ipAddress == fx.ip && t.createdAt == fx.now && t.lastBumpedAt == fx.now
              && t.imageFilenameStored == f.filename
              && t.thumbnailFilenameStored == ThumbnailName(f.filename)
              && r.world.files == w.files + {ThumbnailPath(ThumbnailName(f.filename))}
              && r.response.body.imageUrl == ImageUrl(baseUrl, f.filename)
              && r.response.body.thumbnailUrl == ThumbnailUrl(baseUrl, ThumbnailName(f.filename))
  {
    if file.None? then Outcome(w, Respond(BadRequest, MessageBody(ImageRequiredMessage)))
    else
      var f := file.value;
      if fx.fault.ProcessingFails? then
        Outcome(w.(files := CatchCleanup(w.files, f, None, fx, removeThumbnail)), Raise(fx.fault.err))
      else
        var stored := ProcessAndStoreImage(f, fx.meta, w.files);
        var thumbnail := stored.image.thumbnailFilenameStored;
        if FaultRaised(w.store, shortName, body, fx) then
          Outcome(w.(files := CatchCleanup(stored.files, f, Some(thumbnail), fx, removeThumbnail)), Raise(fx.fault.err))
        else
          var c := CreateThread(w.store, shortName, RowData(body, f, stored.image, fx), fx.now);
          match c.thread
          case None =>
            Outcome(w.(files := DeleteImageFiles(stored.files, fx.unlinkFaults, Some(f.filename), Some(thumbnail))),
                    Respond(NotFound, MessageBody(BoardNotFoundMessage)))
          case Some(t) =>
            ThumbnailNameRoundTrip(f.filename);
            Outcome(World(c.store, stored.files),
                    Respond(Created, CreatedBody(t, ImageUrl(baseUrl, t.imageFilenameStored),
                                                 ThumbnailUrl(baseUrl, t.thumbnailFilenameStored))))
  }

  /** `createThreadHandler` as written: on an exception only the uploaded image
      is removed, so an exception after processing leaves the thumbnail behind
      even where none was there before. */
  function CreateThreadHandlerAsWritten(w: World, baseUrl: string, shortName: string,
                                        body: CreateThreadInput, file: Option<UploadedFile>, fx: Effects): (r: Outcome)
    ensures r.response.Raise? ==> r.world.store == w.store
    ensures file.Some? && r.response.Raise? && !fx.fault.ProcessingFails?
            ==> ThumbnailPath(ThumbnailName(file.value.filename)) in r.world.files
  {
    CreateThreadWith(false, w, baseUrl, shortName, body, file, fx)
  }

  /** `createThreadHandler` with the catch block also removing a written
      thumbnail: when the uploaded image is there to be removed, every answer
      but 201 leaves no file that was not there before. */
  function CreateThreadHandler(w: World, baseUrl: string, shortName: string,
                               body: CreateThreadInput, file: Option<UploadedFile>, fx: Effects): (r: Outcome)
    ensures r.response.Raise? ==> r.world.store == w.store
    ensures !(r.response.Respond? && r.response.status == Created)
            && fx.unlinkFaults == {} && (file.Some? ==> file.value.filename != "" && ImagePath(file.value.filename) in w.files)
            ==> r.world.files <= w.files
  {
    CreateThreadWith(true, w, baseUrl, shortName, body, file, fx)
  }

  // ------------------------------------------------------------- deletion

  /** `deleteThreadHandler`: the refusal reasons become 404, 404, 400 and 403;
      a deletion removes the thread's media and answers 204. */
  function DeleteThreadHandler(w: World, shortName: string, id: int, password: Option<string>,
                               h: Hasher, unlinkFaults: set<Path>): (r: Outcome)
    ensures r.response.Respond?
    ensures var d := DeleteThread(w.store, shortName, id, password, h);
            && (r.response.status == NoContent <==> d.outcome.Deleted?)
            && (d.outcome == Refused(BoardNotFound) ==> r.response == Respond(NotFound, MessageBody(BoardNotFoundMessage)))
            && (d.outcome == Refused(ThreadNotFound) ==> r.response == Respond(NotFound, MessageBody(ThreadNotFoundMessage)))
            && (d.outcome == Refused(PasswordRequired) ==> r.response == Respond(BadRequest, MessageBody(PasswordRequiredMessage)))
            && (d.outcome == Refused(InvalidPassword) ==> r.response == Respond(Forbidden, MessageBody(InvalidPasswordMessage)))
            && (d.outcome.Refused? ==> r.world == w)
            && (d.outcome.Deleted? ==>
                  && r.world.store == d.store
                  && r.world.files == DeleteImageFiles(w.files, unlinkFaults, Some(d.outcome.imageFilenameStored),
                                                       Some(d.outcome.thumbnailFilenameStored)))
  {
    var d := DeleteThread(w.store, shortName, id, password, h);
    match d.outcome
    case Refused(BoardNotFound) => Outcome(w, Respond(NotFound, MessageBody(BoardNotFoundMessage)))
    case Refused(ThreadNotFound) => Outcome(w, Respond(NotFound, MessageBody(ThreadNotFoundMessage)))
    case Refused(PasswordRequired) => Outcome(w, Respond(BadRequest, MessageBody(PasswordRequiredMessage)))
    case Refused(InvalidPassword) => Outcome(w, Respond(Forbidden, MessageBody(InvalidPasswordMessage)))
    case Deleted(image, thumbnail) =>
      Outcome(World(d.store, DeleteImageFiles(w.files, unlinkFaults, Some(image), Some(thumbnail))), Respond(NoContent, NoBody))
  }

  // ------------------------------------------------------- media invariant

  /** The media files a thread row names. */
  predicate ThreadFile(t: Thread, p: Path) {
    p == ImagePath(t.imageFilenameStored) || p == ThumbnailPath(t.thumbnailFilenameStored)
  }

  /** The media files a reply row names; a reply may have none. */
  predicate ReplyFile(x: Reply, p: Path) {
    || (Truthy(x.imageFilenameStored) && p == ImagePath(x.imageFilenameStored.value))
    || (Truthy(x.thumbnailFilenameStored) && p == ThumbnailPath(x.thumbnailFilenameStored.value))
  }

  ghost predicate Referenced(s: Store, p: Path) {
    || (exists t :: t in s.threads && ThreadFile(t, p))
    || (exists x :: x in s.replies && ReplyFile(x, p))
  }

  /** Every thread's two media files are stored under non-empty names. */
  ghost predicate MediaStored(w: World) {
    forall t :: t in w.store.threads ==>
      && t.imageFilenameStored != "" && t.thumbnailFilenameStored != ""
      && ImagePath(t.imageFilenameStored) in w.files
      && ThumbnailPath(t.thumbnailFilenameStored) in w.files
  }

  /** No two threads share an image or a thumbnail name. */
  ghost predicate NamesDistinct(threads: seq<Thread>) {
    forall t1, t2 :: t1 in threads && t2 in threads
      && (t1.imageFilenameStored == t2.imageFilenameStored || t1.thumbnailFilenameStored == t2.thumbnailFilenameStored)
      ==> t1 == t2
  }

  /** Every stored file belongs to some row. */
  ghost predicate NoOrphans(w: World) {
    forall p :: p in w.files ==> Referenced(w.store, p)
  }

  /** No orphaned and no missing media. */
  ghost predicate MediaConsistent(w: World) {
    && Valid(w.store)
    && MediaStored(w)
    && NamesDistinct(w.store.threads)
    && NoOrphans(w)
  }

  /** The upload middleware writes the upload into the image directory. */
  function Upload(w: World, file: Option<UploadedFile>): World {
    if file.Some? then w.(files := w.files + {ImagePath(file.value.filename)}) else w
  }

  /** The upload's generated name, and the thumbnail name derived from it, are
      used by no file and no row yet. */
  ghost predicate FreshUpload(w: World, f: UploadedFile) {
    && f.filename != ""
    && ImagePath(f.filename) !in w.files
    && ThumbnailPath(ThumbnailName(f.filename)) !in w.files
    && !Referenced(w.store, ImagePath(f.filename))
    && !Referenced(w.store, ThumbnailPath(ThumbnailName(f.filename)))
  }

  /** The world after a thread's row and its two files are removed. */
  function WithoutThread(w: World, t: Thread): World {
    World(w.store.(threads := RemoveThread(w.store.threads, t.id)),
          w.files - {ImagePath(t.imageFilenameStored), ThumbnailPath(t.thumbnailFilenameStored)})
  }

  lemma RemovingKeepsStored(w: World, t: Thread)
    requires MediaStored(w) && NamesDistinct(w.store.threads) && t in w.store.threads
    ensures MediaStored(WithoutThread(w, t)) && NamesDistinct(WithoutThread(w, t).store.threads)
  {
    var w' := WithoutThread(w, t);
    forall u | u in w'.store.threads
      ensures ImagePath(u.imageFilenameStored) in w'.files && ThumbnailPath(u.thumbnailFilenameStored) in w'.files
    {
      assert u != t;
    }
  }

  lemma RemovingKeepsNoOrphans(w: World, t: Thread)
    requires NoOrphans(w) && UniqueThreadIds(w.store.threads) && t in w.store.threads
    ensures NoOrphans(WithoutThread(w, t))
  {
    var w' := WithoutThread(w, t);
    forall p | p in w'.files ensures Referenced(w'.store, p) {
      assert Referenced(w.store, p);
      if exists u :: u in w.store.threads && ThreadFile(u, p) {
        var u :| u in w.store.threads && ThreadFile(u, p);
        assert u in w'.store.threads;
      }
    }
  }

  /** Removing a thread's row together with its two files keeps the media consistent. */
  lemma RemovingThreadKeepsMedia(w: World, t: Thread)
    requires MediaConsistent(w) && t in w.store.threads
    ensures MediaConsistent(WithoutThread(w, t))
  {
    RemovingKeepsStored(w, t);
    RemovingKeepsNoOrphans(w, t);
  }

  /** The world after the upload's row and thumbnail are added. */
  function WithThread(w: World, f: UploadedFile, s': Store): World {
    World(s', w.files + {ImagePath(f.filename), ThumbnailPath(ThumbnailName(f.filename))})
  }

  /** The row added for an upload names the upload and its thumbnail. */
  ghost predicate AddsUploadRow(w: World, f: UploadedFile, s': Store, t: Thread) {
    && s'.threads == w.store.threads + [t] && s'.replies == w.store.replies
    && t.imageFilenameStored == f.filename && t.thumbnailFilenameStored == ThumbnailName(f.filename)
  }

  lemma AddingKeepsStored(w: World, f: UploadedFile, s': Store, t: Thread)
    requires MediaStored(w) && NamesDistinct(w.store.threads) && FreshUpload(w, f) && AddsUploadRow(w, f, s', t)
    ensures MediaStored(WithThread(w, f, s')) && NamesDistinct(s'.threads)
  {
    ThumbnailNameRoundTrip(f.filename);
    forall u | u in w.store.threads
      ensures u.imageFilenameStored != t.imageFilenameStored && u.thumbnailFilenameStored != t.thumbnailFilenameStored
    {
    }
  }

  lemma AddingKeepsNoOrphans(w: World, f: UploadedFile, s': Store, t: Thread)
    requires NoOrphans(w) && AddsUploadRow(w, f, s', t)
    ensures NoOrphans(WithThread(w, f, s'))
  {
    var w' := WithThread(w, f, s');
    forall p | p in w'.files ensures Referenced(s', p) {
      if p in w.files {
        assert Referenced(w.store, p);
      } else {
        assert ThreadFile(t, p);
      }
    }
  }

  /** Adding a row for the upload together with its thumbnail keeps the media consistent. */
  lemma AddingThreadKeepsMedia(w: World, f: UploadedFile, s': Store, t: Thread)
    requires MediaConsistent(w) && FreshUpload(w, f)
    requires Valid(s') && AddsUploadRow(w, f, s', t)
    ensures MediaConsistent(WithThread(w, f, s'))
  {
    AddingKeepsStored(w, f, s', t);
    AddingKeepsNoOrphans(w, f, s', t);
  }

  /** With every unlink succeeding, a successful deletion removes the thread's
      two files and keeps the media consistent; a refusal changes nothing. */
  lemma DeletePreservesMedia(w: World, shortName: string, id: int, password: Option<string>, h: Hasher)
    requires MediaConsistent(w)
    ensures var r := DeleteThreadHandler(w, shortName, id, password, h, {});
            && MediaConsistent(r.world)
            && (r.response.status == NoContent ==>
                  var d := DeleteThread(w.store, shortName, id, password, h).outcome;
                  && ImagePath(d.imageFilenameStored) !in r.world.files
                  && ThumbnailPath(d.thumbnailFilenameStored) !in r.world.files)
  {
    var d := DeleteThread(w.store, shortName, id, password, h);
    if d.outcome.Deleted? {
      var t := FindThread(w.store.threads, id, w.store.boards[shortName].id).value;
      assert RequestedPaths(Some(t.imageFilenameStored), Some(t.thumbnailFilenameStored))
             == {ImagePath(t.imageFilenameStored), ThumbnailPath(t.thumbnailFilenameStored)};
      RemovingThreadKeepsMedia(w, t);
      assert DeleteThreadHandler(w, shortName, id, password, h, {}).world == WithoutThread(w, t);
    }
  }

  /** The corrected create handler keeps the media consistent, and whenever it
      does not create a thread it leaves the world as it was before the upload. */
  lemma CreatePreservesMedia(w: World, baseUrl: string, shortName: string, body: CreateThreadInput,
                             f: UploadedFile, fx: Effects)
    requires MediaConsistent(w) && FreshUpload(w, f) && fx.unlinkFaults == {}
    ensures var r := CreateThreadHandler(Upload(w, Some(f)), baseUrl, shortName, body, Some(f), fx);
            && MediaConsistent(r.world)
            && (!(r.response.Respond? && r.response.status == Created) ==> r.world == w)
  {
    var r := CreateThreadHandler(Upload(w, Some(f)), baseUrl, shortName, body, Some(f), fx);
    var image := ImagePath(f.filename);
    var thumbnail := ThumbnailPath(ThumbnailName(f.filename));
    ThumbnailNameRoundTrip(f.filename);
    if r.response.Respond? && r.response.status == Created {
      AddingThreadKeepsMedia(w, f, r.world.store, r.response.body.thread);
      assert r.world == WithThread(w, f, r.world.store);
    } else if fx.fault.ProcessingFails? {
      assert RequestedPaths(Some(f.filename), None) == {image};
    } else {
      UploadCleanupRestores(w.files, f.filename);
      assert w.files + {image} + {thumbnail} == w.files + {image, thumbnail};
    }
  }

  /** As written, an exception after the thumbnail is written (the insert
      failing for an existing board) leaves the thumbnail behind with no row
      naming it. */
  lemma AsWrittenOrphansThumbnail(w: World, baseUrl: string, shortName: string, body: CreateThreadInput,
                                  f: UploadedFile, fx: Effects)
    requires MediaConsistent(w) && FreshUpload(w, f) && fx.unlinkFaults == {}
    requires shortName in w.store.boards && fx.fault.InsertFails?
    ensures var r := CreateThreadHandlerAsWritten(Upload(w, Some(f)), baseUrl, shortName, body, Some(f), fx);
            && r.response.Raise? && r.world.store == w.store
            && r.world.files == w.files + {ThumbnailPath(ThumbnailName(f.filename))}
            && !MediaConsistent(r.world)
  {
    var r := CreateThreadHandlerAsWritten(Upload(w, Some(f)), baseUrl, shortName, body, Some(f), fx);
    var thumbnail := ThumbnailPath(ThumbnailName(f.filename));
    assert RequestedPaths(Some(f.filename), None) == {ImagePath(f.filename)};
    assert thumbnail in r.world.files && !Referenced(r.world.store, thumbnail);
  }

  /** As written, every answer but 201 still removes the uploaded image and
      leaves the store as it was. */
  lemma AsWrittenRemovesUpload(w: World, baseUrl: string, shortName: string, body: CreateThreadInput,
                               f: UploadedFile, fx: Effects)
    requires FreshUpload(w, f) && fx.unlinkFaults == {}
    ensures var r := CreateThreadHandlerAsWritten(Upload(w, Some(f)), baseUrl, shortName, body, Some(f), fx);
            !(r.response.Respond? && r.response.status == Created) ==>
              && ImagePath(f.filename) !in r.world.files
              && r.world.store == w.store
  {
  }

  /** A create without faults on an existing board answers 201 with a new
      row at the end of the thread table, a fresh id when the store is valid,
      and the thumbnail written next to the upload. */
  lemma CreateSucceeds(w: World, baseUrl: string, shortName: string, body: CreateThreadInput,
                       f: UploadedFile, fx: Effects)
    requires fx.fault == NoFault && shortName in w.store.boards
    ensures var r := CreateThreadHandler(w, baseUrl, shortName, body, Some(f), fx);
            && r.response.Respond? && r.response.status == Created && r.response.body.CreatedBody?
            && var t := r.response.body.thread;
            && r.world.store.threads == w.store.threads + [t]
            && t.boardId == w.store.boards[shortName].id
            && (Valid(w.store) ==> forall u :: u in w.store.threads ==> u.id != t.id)
            && r.world.files == w.files + {ThumbnailPath(ThumbnailName(f.filename))}
  {
  }

  /** Deleting a freshly created thread with the password it was created with
      answers 204 and removes its row and both of its files again. */
  lemma CreateThenDeleteHandlers(w: World, baseUrl: string, shortName: string, body: CreateThreadInput,
                                 f: UploadedFile, fx: Effects)
    requires MediaConsistent(w) && FreshUpload(w, f)
    requires fx.unlinkFaults == {} && fx.fault == NoFault && Sound(fx.hasher)
    requires shortName in w.store.boards
    ensures var c := CreateThreadHandler(Upload(w, Some(f)), baseUrl, shortName, body, Some(f), fx);
            && c.response == Respond(Created, c.response.body)
            && var d := DeleteThreadHandler(c.world, shortName, c.response.body.thread.id, body.deletionPassword, fx.hasher, {});
            && d.response == Respond(NoContent, NoBody)
            && d.world.files == w.files
            && d.world.store.threads == w.store.threads
            && d.world.store.boards == w.store.boards
  {
    var up := Upload(w, Some(f));
    var stored := ProcessAndStoreImage(f, fx.meta, up.files);
    var data := RowData(body, f, stored.image, fx);
    CreatedOutcome(up, baseUrl, shortName, body, f, fx);
    DeleteCreated(w, shortName, data, fx.now, stored.files, body.deletionPassword, fx.hasher);
  }

  /** The outcome of a create without faults on an existing board, in terms of
      the service's `createThread`. */
  lemma CreatedOutcome(w: World, baseUrl: string, shortName: string, body: CreateThreadInput,
                       f: UploadedFile, fx: Effects)
    requires fx.fault == NoFault && shortName in w.store.boards
    ensures var stored := ProcessAndStoreImage(f, fx.meta, w.files);
            var c := CreateThread(w.store, shortName, RowData(body, f, stored.image, fx), fx.now);
            var h := CreateThreadHandler(w, baseUrl, shortName, body, Some(f), fx);
            && c.thread.Some?
            && h.world == World(c.store, stored.files)
            && h.response == Respond(Created, h.response.body)
            && h.response.body.CreatedBody? && h.response.body.thread == c.thread.value
  {
  }

  /** Deleting the row `createThread` just added, with its password, removes
      the row and both files of a fresh upload. */
  lemma DeleteCreated(w: World, shortName: string, data: NewThread, now: int, files: set<Path>,
                      password: Option<string>, h: Hasher)
    requires MediaConsistent(w) && shortName in w.store.boards && Sound(h)
    requires data.deletionPasswordHash == PasswordHash(h, password)
    requires var name := data.image.imageFilenameStored;
             && name != "" && data.image.thumbnailFilenameStored == ThumbnailName(name)
             && ImagePath(name) !in w.files && ThumbnailPath(ThumbnailName(name)) !in w.files
             && files == w.files + {ImagePath(name), ThumbnailPath(ThumbnailName(name))}
    ensures var c := CreateThread(w.store, shortName, data, now);
            var d := DeleteThreadHandler(World(c.store, files), shortName, c.thread.value.id, password, h, {});
            && d.response == Respond(NoContent, NoBody)
            && d.world.files == w.files
            && d.world.store.threads == w.store.threads
            && d.world.store.boards == w.store.boards
  {
    var name := data.image.imageFilenameStored;
    CreateThenDelete(w.store, shortName, data, now, password, h);
    UploadCleanupRestores(w.files, name);
  }

  /** Removing both files of an upload whose names were free restores the directories. */
  lemma UploadCleanupRestores(files: set<Path>, name: string)
    requires name != "" && ImagePath(name) !in files && ThumbnailPath(ThumbnailName(name)) !in files
    ensures DeleteImageFiles(files + {ImagePath(name), ThumbnailPath(ThumbnailName(name))}, {},
                             Some(name), Some(ThumbnailName(name))) == files
  {
    assert RequestedPaths(Some(name), Some(ThumbnailName(name))) == {ImagePath(name), ThumbnailPath(ThumbnailName(name))};
  }
}

=== FILE: thread_service.dfy ===
/**
  The thread service: paginated, bump-ordered listing of a board's threads;
  board-scoped lookup of one thread with its replies; creation; and the
  ordered, password-gated deletion decision. Each operation is a pure
  transition over the store value.
 */
module ThreadService {
  import opened Common
  import opened Seqs
  import opened Store
  import opened Passwords
  import opened ImageService

  const DefaultPage: int := 1
  const DefaultLimit: int := 15
  const RecentReplyCount: nat := 3
  const AnonymousName: string := "Anonymous"

  // ---------------------------------------------------------------- orders

  /** `orderBy: { lastBumpedAt: 'desc' }` */
  predicate BumpedNoEarlier(a: Thread, b: Thread) {
    a.lastBumpedAt >= b.lastBumpedAt
  }

  /** `orderBy: { createdAt: 'desc' }` */
  predicate CreatedNoEarlier(a: Reply, b: Reply) {
    a.createdAt >= b.createdAt
  }

  /** `orderBy: { createdAt: 'asc' }` */
  predicate CreatedNoLater(a: Reply, b: Reply) {
    a.createdAt <= b.createdAt
  }

  lemma OrdersArePreorders()
    ensures TotalPreorder(BumpedNoEarlier)
    ensures TotalPreorder(CreatedNoEarlier)
    ensures TotalPreorder(CreatedNoLater)
  {
  }

  /** A board's threads in listing order. */
  function ByBump(threads: seq<Thread>): (r: seq<Thread>)
    ensures multiset(r) == multiset(threads) && |r| == |threads|
    ensures Sorted(r, BumpedNoEarlier)
  {
    OrdersArePreorders();
    Sort(threads, BumpedNoEarlier)
  }

  /** Replies newest first. */
  function NewestFirst(replies: seq<Reply>): (r: seq<Reply>)
    ensures multiset(r) == multiset(replies) && |r| == |replies|
    ensures Sorted(r, CreatedNoEarlier)
  {
    OrdersArePreorders();
    Sort(replies, CreatedNoEarlier)
  }

  /** Replies oldest first. */
  function OldestFirst(replies: seq<Reply>): (r: seq<Reply>)
    ensures multiset(r) == multiset(replies) && |r| == |replies|
    ensures Sorted(r, CreatedNoLater)
  {
    OrdersArePreorders();
    Sort(replies, CreatedNoLater)
  }

  // ------------------------------------------------------------ pagination

  /** `page || 1` */
  function PageNumber(page: int): int {
    IntOr(page, DefaultPage)
  }

  /** `limit || 15` */
  function PageSize(limit: int): int {
    IntOr(limit, DefaultLimit)
  }

  /** `(pageNum - 1) * limitNum` */
  function Skip(pageNum: int, limitNum: int): nat
    requires pageNum >= 1 && limitNum >= 1
  {
    Stride(pageNum - 1, limitNum)
  }

  /** `Math.ceil(n / d)` on a whole quotient: the least r with r * d >= n. */
  function CeilDiv(n: nat, d: nat): (r: nat)
    requires d > 0
    ensures Stride(r, d) >= n
    ensures r == 0 || Stride(r - 1, d) < n
  {
    var q := (n + d - 1) / d;
    var rem := (n + d - 1) % d;
    assert n + d - 1 == q * d + rem;
    assert (q - 1) * d == q * d - d;
    StrideIsProduct(q, d);
    if q > 0 then
      StrideIsProduct(q - 1, d);
      q
    else q
  }

  datatype Pagination = Pagination(currentPage: int, totalPages: nat, totalThreads: nat)

  /** A listed thread: its reply count and its newest replies. */
  datatype ThreadSummary = ThreadSummary(thread: Thread, replyCount: nat, recentReplies: seq<Reply>)

  datatype Listing =
    | NoSuchBoard
      /** a window the store refuses: a negative `skip`; a negative `take`,
          which the store would read from the end of the list, is refused too */
    | WindowRejected
    | Listed(threads: seq<ThreadSummary>, pagination: Pagination)

  /** `orderBy: { createdAt: 'desc' }, take: n`: the n newest replies. */
  function Newest(replies: seq<Reply>, n: nat): seq<Reply> {
    Window(NewestFirst(replies), 0, n)
  }

  /** The replies kept are the newest ones, newest first. */
  lemma NewestKeepsNewest(replies: seq<Reply>, n: nat)
    ensures var r := Newest(replies, n);
            && |r| == Min(n, |replies|)
            && (forall x :: x in r ==> x in replies)
            && multiset(r) <= multiset(replies)
            && Sorted(r, CreatedNoEarlier)
            && (forall x, y :: x in replies && x !in r && y in r ==> y.createdAt >= x.createdAt)
  {
    var newestFirst := NewestFirst(replies);
    var recent := Window(newestFirst, 0, n);
    WindowSorted(newestFirst, CreatedNoEarlier, 0, n);
    WindowWithin(newestFirst, 0, n);
    assert forall x :: x in recent ==> x in multiset(replies) by {
      forall x | x in recent ensures x in multiset(replies) {
        assert x in multiset(recent);
      }
    }
    assert forall x, y :: x in replies && x !in recent && y in recent ==> y.createdAt >= x.createdAt by {
      forall x, y | x in replies && x !in recent && y in recent
        ensures y.createdAt >= x.createdAt
      {
        assert x in multiset(newestFirst);
        WindowPrecedesRest(newestFirst, CreatedNoEarlier, n, x, y);
      }
    }
  }

  /** The `_count` and `take: 3` part of the listing query. */
  function Summarize(s: Store, t: Thread): ThreadSummary {
    ThreadSummary(t, |RepliesOf(s, t.id)|, Newest(RepliesOf(s, t.id), RecentReplyCount))
  }

  /** A summary counts the thread's replies and keeps its three newest, newest first. */
  lemma SummaryOfThread(s: Store, t: Thread)
    ensures var r := Summarize(s, t);
            && r.thread == t
            && r.replyCount == |RepliesOf(s, t.id)|
            && |r.recentReplies| == Min(RecentReplyCount, r.replyCount)
            && (forall x :: x in r.recentReplies ==> x in s.replies && x.threadId == t.id)
            && multiset(r.recentReplies) <= multiset(RepliesOf(s, t.id))
            && Sorted(r.recentReplies, CreatedNoEarlier)
            && (forall x, y :: x in RepliesOf(s, t.id) && x !in r.recentReplies && y in r.recentReplies
                               ==> y.createdAt >= x.createdAt)
  {
    NewestKeepsNewest(RepliesOf(s, t.id), RecentReplyCount);
  }

  /** The board's threads at one page, newest bump first. */
  function BoardPage(s: Store, boardId: nat, skip: nat, take: nat): seq<Thread> {
    Window(ByBump(ThreadsOf(s, boardId)), skip, take)
  }

  /** The pagination block counts the board's threads and rounds the page
      count up: `totalPages == ceil(totalThreads / limit)`. */
  ghost predicate CountsMatch(p: Pagination, total: nat, pageNum: int, limitNum: nat) {
    && p.currentPage == pageNum
    && p.totalThreads == total
    && Stride(p.totalPages, limitNum) >= total
    && (p.totalPages == 0 || Stride(p.totalPages - 1, limitNum) < total)
  }

  /** The thread rows of listed summaries. */
  function Rows(threads: seq<ThreadSummary>): seq<Thread> {
    MapSeq(threads, (x: ThreadSummary) => x.thread)
  }

  /** The listed rows are the board's, each at most as often as the board
      holds it, newest bump first, as many as the window holds. */
  ghost predicate RowsMatch(s: Store, boardId: nat, skip: int, take: int, threads: seq<ThreadSummary>) {
    && |threads| == Min(take, Max(0, |ThreadsOf(s, boardId)| - skip))
    && multiset(Rows(threads)) <= multiset(ThreadsOf(s, boardId))
    && (forall i :: 0 <= i < |threads| ==> threads[i].thread in s.threads && threads[i].thread.boardId == boardId)
    && (forall i, j :: 0 <= i < j < |threads| ==> threads[i].thread.lastBumpedAt >= threads[j].thread.lastBumpedAt)
  }

  /** Every listed row carries its own reply count and newest replies. */
  ghost predicate Summarized(s: Store, threads: seq<ThreadSummary>) {
    forall i :: 0 <= i < |threads| ==> threads[i] == Summarize(s, threads[i].thread)
  }

  /** What a correct page of a board's listing is, stated without the query. */
  ghost predicate IsPage(s: Store, boardId: nat, pageNum: int, limitNum: int,
                         threads: seq<ThreadSummary>, pagination: Pagination)
    requires pageNum >= 1 && limitNum >= 1
  {
    && CountsMatch(pagination, |ThreadsOf(s, boardId)|, pageNum, limitNum)
    && RowsMatch(s, boardId, Skip(pageNum, limitNum), limitNum, threads)
    && Summarized(s, threads)
  }

  /** The pagination block of a listing. */
  function PaginationFor(total: nat, pageNum: int, limitNum: int): (r: Pagination)
    requires limitNum >= 1
    ensures CountsMatch(r, total, pageNum, limitNum)
  {
    Pagination(pageNum, CeilDiv(total, limitNum), total)
  }

  /** The threads of one page of a board, each summarized. */
  function PageThreads(s: Store, boardId: nat, skip: nat, take: nat): seq<ThreadSummary> {
    MapSeq(BoardPage(s, boardId, skip, take), (t: Thread) => Summarize(s, t))
  }

  lemma PageThreadsShape(s: Store, boardId: nat, skip: nat, take: nat)
    ensures var r := PageThreads(s, boardId, skip, take);
            var w := BoardPage(s, boardId, skip, take);
            && |r| == |w| == Min(take, Max(0, |ThreadsOf(s, boardId)| - skip))
            && forall i :: 0 <= i < |r| ==> r[i].thread == w[i] && r[i] == Summarize(s, w[i])
  {
  }

  lemma PageRows(s: Store, boardId: nat, skip: nat, take: nat)
    ensures RowsMatch(s, boardId, skip, take, PageThreads(s, boardId, skip, take))
  {
    var r := PageThreads(s, boardId, skip, take);
    var w := BoardPage(s, boardId, skip, take);
    var ordered := ByBump(ThreadsOf(s, boardId));
    PageThreadsShape(s, boardId, skip, take);
    WindowSorted(ordered, BumpedNoEarlier, skip, take);
    forall i | 0 <= i < |r| ensures r[i].thread in s.threads && r[i].thread.boardId == boardId {
      assert w[i] in w;
      assert w[i] in multiset(ordered);
    }
    PageRowsWithin(s, boardId, skip, take);
  }

  /** The rows of a page are a sub-multiset of the board's threads. */
  lemma PageRowsWithin(s: Store, boardId: nat, skip: nat, take: nat)
    ensures multiset(Rows(PageThreads(s, boardId, skip, take))) <= multiset(ThreadsOf(s, boardId))
  {
    PageThreadsShape(s, boardId, skip, take);
    assert Rows(PageThreads(s, boardId, skip, take)) == BoardPage(s, boardId, skip, take);
    WindowWithin(ByBump(ThreadsOf(s, boardId)), skip, take);
  }

  lemma PageSummarized(s: Store, boardId: nat, skip: nat, take: nat)
    ensures Summarized(s, PageThreads(s, boardId, skip, take))
  {
    PageThreadsShape(s, boardId, skip, take);
  }

  /** The listing of a page of an existing board. */
  function Page(s: Store, boardId: nat, pageNum: int, limitNum: int): (r: Listing)
    requires pageNum >= 1 && limitNum >= 1
  {
    Listed(PageThreads(s, boardId, Skip(pageNum, limitNum), limitNum),
           PaginationFor(|ThreadsOf(s, boardId)|, pageNum, limitNum))
  }

  /** `getThreadsByBoard` */
  function GetThreadsByBoard(s: Store, shortName: string, page: int, limit: int): (r: Listing)
    ensures r.NoSuchBoard? <==> shortName !in s.boards
    ensures r.WindowRejected? <==> shortName in s.boards && !(PageNumber(page) >= 1 && PageSize(limit) >= 1)
  {
    var pageNum := PageNumber(page);
    var limitNum := PageSize(limit);
    if shortName !in s.boards then NoSuchBoard
    else if !(pageNum >= 1 && limitNum >= 1) then WindowRejected
    else Page(s, s.boards[shortName].id, pageNum, limitNum)
  }

  /** A listing of an existing board is the page the query asks for; without
      ties on the bump time its rows are exactly that window of the bump order. */
  lemma ListingIsPage(s: Store, shortName: string, page: int, limit: int)
    ensures var r := GetThreadsByBoard(s, shortName, page, limit);
            r.Listed? ==> IsPage(s, s.boards[shortName].id, PageNumber(page), PageSize(limit), r.threads, r.pagination)
    ensures var r := GetThreadsByBoard(s, shortName, page, limit);
            r.Listed? && DistinctBumps(ThreadsOf(s, s.boards[shortName].id)) ==>
              Rows(r.threads) == Window(ByBump(ThreadsOf(s, s.boards[shortName].id)),
                                        Skip(PageNumber(page), PageSize(limit)), PageSize(limit))
  {
    var r := GetThreadsByBoard(s, shortName, page, limit);
    if r.Listed? {
      var pageNum, limitNum := PageNumber(page), PageSize(limit);
      var boardId := s.boards[shortName].id;
      var skip := Skip(pageNum, limitNum);
      PageRows(s, boardId, skip, limitNum);
      PageSummarized(s, boardId, skip, limitNum);
      PageThreadsShape(s, boardId, skip, limitNum);
      assert Rows(r.threads) == BoardPage(s, boardId, skip, limitNum);
    }
  }

  /** The thread rows of a listing, without their summaries. */
  function ListedThreads(r: Listing): seq<Thread> {
    if r.Listed? then Rows(r.threads) else []
  }

  /** The thread rows of page `k` of a listing. */
  function PageRowsAt(s: Store, shortName: string, k: nat, limit: int): seq<Thread> {
    ListedThreads(GetThreadsByBoard(s, shortName, k, limit))
  }

  /** The thread rows of pages `1 .. n` of a listing, page `k + 1` at index `k`. */
  function PagesThrough(s: Store, shortName: string, limit: int, n: nat): (r: seq<seq<Thread>>)
    ensures |r| == n
  {
    seq(n, k requires 0 <= k < n => PageRowsAt(s, shortName, k + 1, limit))
  }

  /** The thread rows of pages `1 .. n` of a listing, one page after another. */
  function ListingThrough(s: Store, shortName: string, limit: int, n: nat): seq<Thread> {
    Flatten(PagesThrough(s, shortName, limit, n))
  }

  /** Page `n` of a listing is the `n`-th window of the bump-ordered board. */
  lemma PageIsWindow(s: Store, shortName: string, limit: int, l: nat, n: nat)
    requires shortName in s.boards && l == PageSize(limit) && l >= 1 && n >= 1
    ensures PageRowsAt(s, shortName, n, limit)
            == Window(ByBump(ThreadsOf(s, s.boards[shortName].id)), Stride(n - 1, l), l)
  {
    var boardId := s.boards[shortName].id;
    assert PageNumber(n) == n;
    var threads := PageThreads(s, boardId, Skip(n, l), l);
    assert GetThreadsByBoard(s, shortName, n, limit).threads == threads;
    PageThreadsShape(s, boardId, Skip(n, l), l);
  }

  /** The same fact counted from 0: page `k + 1` is window `k`. */
  lemma PageAfter(s: Store, shortName: string, limit: int, l: nat, k: nat)
    requires shortName in s.boards && l == PageSize(limit) && l >= 1
    ensures PageRowsAt(s, shortName, k + 1, limit)
            == Window(ByBump(ThreadsOf(s, s.boards[shortName].id)), Stride(k, l), l)
  {
    PageIsWindow(s, shortName, limit, l, k + 1);
  }

  /** Row `k` of the listed pages is page `k + 1`. */
  lemma RowOfPage(s: Store, shortName: string, limit: int, n: nat, k: nat)
    requires k < n
    ensures PagesThrough(s, shortName, limit, n)[k] == PageRowsAt(s, shortName, k + 1, limit)
  {
  }

  /** Each of pages `1 .. n` is its window of the bump-ordered board. */
  lemma PagesAreWindowRows(s: Store, shortName: string, limit: int, l: nat, n: nat)
    requires shortName in s.boards && l == PageSize(limit) && l >= 1
    ensures var rows := PagesThrough(s, shortName, limit, n);
            forall k {:trigger rows[k]} :: 0 <= k < n
              ==> rows[k] == Window(ByBump(ThreadsOf(s, s.boards[shortName].id)), Stride(k, l), l)
  {
    var rows := PagesThrough(s, shortName, limit, n);
    forall k {:trigger rows[k]} | 0 <= k < n
      ensures rows[k] == Window(ByBump(ThreadsOf(s, s.boards[shortName].id)), Stride(k, l), l)
    {
      RowOfPage(s, shortName, limit, n, k);
      PageAfter(s, shortName, limit, l, k);
    }
  }

  /** Pages `1 .. n`, one after another, are the first `n` windows of the board. */
  lemma PagesAreWindows(s: Store, shortName: string, limit: int, l: nat, n: nat)
    requires shortName in s.boards && l == PageSize(limit) && l >= 1
    ensures ListingThrough(s, shortName, limit, n) == Tiles(ByBump(ThreadsOf(s, s.boards[shortName].id)), l, n)
  {
    PagesAreWindowRows(s, shortName, limit, l, n);
    FlattenWindows(PagesThrough(s, shortName, limit, n), ByBump(ThreadsOf(s, s.boards[shortName].id)), l);
  }

  /** `totalPages` pages hold all of the board's threads. */
  lemma TotalPagesSuffice(s: Store, shortName: string, limit: int, l: nat)
    requires shortName in s.boards && l == PageSize(limit) && l >= 1
    ensures Stride(GetThreadsByBoard(s, shortName, 1, limit).pagination.totalPages, l)
            >= |ThreadsOf(s, s.boards[shortName].id)|
  {
    var r := GetThreadsByBoard(s, shortName, 1, limit);
    assert CountsMatch(r.pagination, |ThreadsOf(s, s.boards[shortName].id)|, 1, l);
  }

  /** No two of the threads were bumped at the same instant. The database
      orders tied rows arbitrarily, and separately for each page query; only
      without ties is the bump order one fixed sequence. */
  ghost predicate DistinctBumps(threads: seq<Thread>) {
    forall i, j :: 0 <= i < j < |threads| ==> threads[i].lastBumpedAt != threads[j].lastBumpedAt
  }

  /** Walking the pages 1 .. totalPages visits every thread of the board exactly
      once, newest bump first, provided no two of its threads tie on the bump time. */
  lemma PagesCoverBoard(s: Store, shortName: string, limit: int)
    requires shortName in s.boards && PageSize(limit) >= 1
    requires DistinctBumps(ThreadsOf(s, s.boards[shortName].id))
    ensures var total := GetThreadsByBoard(s, shortName, 1, limit).pagination.totalPages;
            var all := ListingThrough(s, shortName, limit, total);
            && multiset(all) == multiset(ThreadsOf(s, s.boards[shortName].id))
            && Sorted(all, BumpedNoEarlier)
  {
    var total := GetThreadsByBoard(s, shortName, 1, limit).pagination.totalPages;
    var ordered := ByBump(ThreadsOf(s, s.boards[shortName].id));
    var l: nat := PageSize(limit);
    PagesAreWindows(s, shortName, limit, l, total);
    WindowsTile(ordered, l, total);
    TotalPagesSuffice(s, shortName, limit, l);
    assert ordered[..Min(Stride(total, l), |ordered|)] == ordered;
  }

  /** A page is non-empty exactly when it lies between 1 and totalPages. */
  lemma PageArithmetic(pg: Pagination, n: nat, p: int, l: int)
    requires p >= 1 && l >= 1 && CountsMatch(pg, n, p, l)
    ensures Min(l, Max(0, n - Skip(p, l))) > 0 <==> p <= pg.totalPages
  {
    if p <= pg.totalPages {
      StrideMonotone(p - 1, pg.totalPages - 1, l);
    } else {
      StrideMonotone(pg.totalPages, p - 1, l);
    }
  }

  lemma PageInRange(s: Store, shortName: string, page: int, limit: int)
    requires shortName in s.boards && PageNumber(page) >= 1 && PageSize(limit) >= 1
    ensures var r := GetThreadsByBoard(s, shortName, page, limit);
            |r.threads| > 0 <==> r.pagination.currentPage <= r.pagination.totalPages
  {
    var r := GetThreadsByBoard(s, shortName, page, limit);
    var p, l := PageNumber(page), PageSize(limit);
    var boardId := s.boards[shortName].id;
    var n := |ThreadsOf(s, boardId)|;
    PageThreadsShape(s, boardId, Skip(p, l), l);
    assert CountsMatch(r.pagination, n, p, l);
    PageArithmetic(r.pagination, n, p, l);
  }

  // ------------------------------------------------------- single thread

  datatype ReplyWithChildren = ReplyWithChildren(reply: Reply, childReplies: seq<Reply>)

  datatype ThreadDetail = ThreadDetail(thread: Thread, replies: seq<ReplyWithChildren>)

  function WithChildren(s: Store, r: Reply): ReplyWithChildren {
    ReplyWithChildren(r, ChildrenOf(s, r.id))
  }

  function ReplyRows(d: ThreadDetail): seq<Reply> {
    MapSeq(d.replies, (x: ReplyWithChildren) => x.reply)
  }

  /** `getThreadById`: the thread only if it belongs to the named board. */
  function GetThreadById(s: Store, shortName: string, id: int): (r: Option<ThreadDetail>)
    ensures r.Some? <==> shortName in s.boards
                         && exists t :: t in s.threads && t.id == id && t.boardId == s.boards[shortName].id
    ensures r.Some? ==> r.value.thread in s.threads && r.value.thread.id == id
                        && r.value.thread.boardId == s.boards[shortName].id
    ensures r.Some? ==> multiset(ReplyRows(r.value)) == multiset(RepliesOf(s, r.value.thread.id))
    ensures r.Some? ==> forall i, j :: 0 <= i < j < |r.value.replies|
                          ==> r.value.replies[i].reply.createdAt <= r.value.replies[j].reply.createdAt
    ensures r.Some? ==> forall i, c :: 0 <= i < |r.value.replies| ==>
                          (c in r.value.replies[i].childReplies
                           <==> c in s.replies && c.parentReplyId == Some(r.value.replies[i].reply.id))
  {
    if shortName !in s.boards then None
    else
      match FindThread(s.threads, id, s.boards[shortName].id)
      case None => None
      case Some(t) =>
        var ordered := OldestFirst(RepliesOf(s, t.id));
        var d := ThreadDetail(t, MapSeq(ordered, (x: Reply) => WithChildren(s, x)));
        assert ReplyRows(d) == ordered;
        Some(d)
  }

  /** A thread id found under another board is never returned. */
  lemma ThreadUnderOtherBoardNotFound(s: Store, shortName: string, t: Thread)
    requires Valid(s) && t in s.threads
    requires shortName in s.boards && s.boards[shortName].id != t.boardId
    ensures GetThreadById(s, shortName, t.id).None?
  {
  }

  // ------------------------------------------------------------- creation

  /** The row data of `createThread`: request fields, processed image, and the
      password hash computed by the caller. */
  datatype NewThread = NewThread(
    subject: Option<string>,
    comment: string,
    posterName: Option<string>,
    imageOriginalFilename: string,
    image: ProcessedImage,
    ipAddress: Option<string>,
    deletionPasswordHash: Option<string>)

  datatype Creation = Creation(store: Store, thread: Option<Thread>)

  /** The new row carries the request's fields, with the poster name defaulted. */
  ghost predicate RowFrom(t: Thread, d: NewThread, now: int) {
    && t.subject == d.subject
    && t.comment == d.comment
    && (Truthy(d.posterName) ==> t.posterName == d.posterName.value)
    && (!Truthy(d.posterName) ==> t.posterName == AnonymousName)
    && t.imageOriginalFilename == d.imageOriginalFilename
    && t.imageFilenameStored == d.image.imageFilenameStored
    && t.imageMimetype == d.image.imageMimetype
    && t.imageFilesizeBytes == d.image.imageFilesizeBytes
    && t.imageWidth == d.image.imageWidth
    && t.imageHeight == d.image.imageHeight
    && t.thumbnailFilenameStored == d.image.thumbnailFilenameStored
    && t.ipAddress == d.ipAddress
    && t.deletionPasswordHash == d.deletionPasswordHash
    && t.createdAt == now && t.lastBumpedAt == now
  }

  /** `createThread`: `now` stands for the database's `now()` defaults. */
  function CreateThread(s: Store, shortName: string, data: NewThread, now: int): (r: Creation)
    ensures shortName !in s.boards ==> r.thread.None? && r.store == s
    ensures shortName in s.boards ==> r.thread.Some?
    ensures r.thread.Some? ==> && r.store.threads == s.threads + [r.thread.value]
                               && r.store.boards == s.boards && r.store.replies == s.replies
                               && r.thread.value.boardId == s.boards[shortName].id
                               && RowFrom(r.thread.value, data, now)
    ensures Valid(s) && r.thread.Some? ==> forall t :: t in s.threads ==> t.id != r.thread.value.id
    ensures Valid(s) ==> Valid(r.store)
  {
    if shortName !in s.boards then Creation(s, None)
    else
      var t := Thread(
        s.nextThreadId, s.boards[shortName].id,
        data.subject, data.comment, StringOr(data.posterName, AnonymousName),
        data.imageOriginalFilename, data.image.imageFilenameStored, data.image.imageMimetype,
        data.image.imageFilesizeBytes, data.image.imageWidth, data.image.imageHeight,
        data.image.thumbnailFilenameStored, data.ipAddress, data.deletionPasswordHash,
        now, now);
      Creation(s.(threads := s.threads + [t], nextThreadId := s.nextThreadId + 1), Some(t))
  }

  // ------------------------------------------------------------- deletion

  datatype DeleteFailure = BoardNotFound | ThreadNotFound | InvalidPassword | PasswordRequired

  datatype DeleteOutcome =
    | Deleted(imageFilenameStored: string, thumbnailFilenameStored: string)
    | Refused(reason: DeleteFailure)

  datatype Deletion = Deletion(store: Store, outcome: DeleteOutcome)

  /** `deleteThread`: board, then thread, then password; the first failing
      check decides, and a refusal leaves the store as it was. */
  function DeleteThread(s: Store, shortName: string, id: int, password: Option<string>, h: Hasher): (r: Deletion)
    ensures r.outcome.Refused? ==> r.store == s
    ensures r.outcome == Refused(BoardNotFound) <==> shortName !in s.boards
    ensures r.outcome == Refused(ThreadNotFound)
            <==> shortName in s.boards && forall t :: t in s.threads ==> !(t.id == id && t.boardId == s.boards[shortName].id)
    ensures r.outcome == Refused(InvalidPassword)
            <==> && shortName in s.boards
                 && var found := FindThread(s.threads, id, s.boards[shortName].id);
                 && found.Some? && Truthy(found.value.deletionPasswordHash) && Truthy(password)
                 && !h.verify(password.value, found.value.deletionPasswordHash.value)
    ensures r.outcome == Refused(PasswordRequired)
            <==> && shortName in s.boards
                 && var found := FindThread(s.threads, id, s.boards[shortName].id);
                 && found.Some? && Truthy(found.value.deletionPasswordHash) && !Truthy(password)
    ensures r.outcome.Deleted? ==>
              && shortName in s.boards
              && var found := FindThread(s.threads, id, s.boards[shortName].id);
              && found.Some?
              && r.outcome == Deleted(found.value.imageFilenameStored, found.value.thumbnailFilenameStored)
              && r.store == s.(threads := RemoveThread(s.threads, found.value.id))
  {
    if shortName !in s.boards then Deletion(s, Refused(BoardNotFound))
    else
      match FindThread(s.threads, id, s.boards[shortName].id)
      case None => Deletion(s, Refused(ThreadNotFound))
      case Some(t) =>
        if Truthy(t.deletionPasswordHash) && Truthy(password) && !h.verify(password.value, t.deletionPasswordHash.value) then
          Deletion(s, Refused(InvalidPassword))
        else if Truthy(t.deletionPasswordHash) && !Truthy(password) then
          Deletion(s, Refused(PasswordRequired))
        else
          Deletion(s.(threads := RemoveThread(s.threads, t.id)), Deleted(t.imageFilenameStored, t.thumbnailFilenameStored))
  }

  /** A successful deletion removes exactly the rows with that id; a second
      deletion of the same id finds nothing. */
  lemma DeleteTwice(s: Store, shortName: string, id: int, p1: Option<string>, p2: Option<string>, h: Hasher)
    requires DeleteThread(s, shortName, id, p1, h).outcome.Deleted?
    ensures var after := DeleteThread(s, shortName, id, p1, h).store;
            && (forall t :: t in after.threads <==> t in s.threads && t.id != id)
            && DeleteThread(after, shortName, id, p2, h).outcome == Refused(ThreadNotFound)
  {
  }

  /** Deleting with the password the thread was created with always succeeds,
      returns the thread's media names and restores the thread table. */
  lemma {:induction false} CreateThenDelete(s: Store, shortName: string, data: NewThread, now: int,
                                            password: Option<string>, h: Hasher)
    requires Valid(s) && shortName in s.boards && Sound(h)
    requires data.deletionPasswordHash == (if Truthy(password) then Some(h.hash(password.value)) else None)
    ensures var c := CreateThread(s, shortName, data, now);
            var d := DeleteThread(c.store, shortName, c.thread.value.id, password, h);
            && d.outcome == Deleted(data.image.imageFilenameStored, data.image.thumbnailFilenameStored)
            && d.store.threads == s.threads
            && d.store.boards == s.boards
            && d.store.replies == s.replies
  {
    var c := CreateThread(s, shortName, data, now);
    var t := c.thread.value;
    var found := FindThread(c.store.threads, t.id, s.boards[shortName].id);
    assert found == Some(t) by {
      assert forall u :: u in c.store.threads && u.id == t.id ==> u == t;
    }
    if Truthy(password) {
      assert h.verify(password.value, h.hash(password.value));
    }
    FilterConcat(s.threads, [t], (u: Thread) => u.id != t.id);
    FilterKeepsAll(s.threads, (u: Thread) => u.id != t.id);
    FilterDropsAll([t], (u: Thread) => u.id != t.id);
  }
}

=== FILE: thread_validators.dfy ===
/**
  The request schema of a new thread's body and its field bounds. Bodies
  are modelled with their string fields only; a field of another JSON type
  is outside the model.
 */
module ThreadValidators {
  import opened Common

  const MaxSubjectLength: nat := 255
  const MaxPosterNameLength: nat := 50
  const MinCommentLength: nat := 1

  /** A JSON body as it arrives: every field may be missing. */
  datatype RawThreadBody = RawThreadBody(
    subject: Option<string>,
    comment: Option<string>,
    posterName: Option<string>,
    deletionPassword: Option<string>)

  /** The body of a new thread once the schema accepts it. */
  datatype CreateThreadInput = CreateThreadInput(
    subject: Option<string>,
    comment: string,
    posterName: Option<string>,
    deletionPassword: Option<string>)

  /** An optional string field with a maximum length. */
  predicate AtMost(field: Option<string>, max: nat) {
    field.None? || |field.value| <= max
  }

  /** `createThreadSchema.body` */
  predicate ValidCreateThreadBody(b: RawThreadBody) {
    && AtMost(b.subject, MaxSubjectLength)
    && b.comment.Some? && |b.comment.value| >= MinCommentLength
    && AtMost(b.posterName, MaxPosterNameLength)
  }

  /** Parsing a new thread's body: the accepted fields pass through unchanged. */
  function ParseCreateThread(b: RawThreadBody): (r: Option<CreateThreadInput>)
    ensures r.Some? <==> ValidCreateThreadBody(b)
    ensures r.Some? ==> && r.value.subject == b.subject
                        && Some(r.value.comment) == b.comment
                        && r.value.posterName == b.posterName
                        && r.value.deletionPassword == b.deletionPassword
  {
    if ValidCreateThreadBody(b) then Some(CreateThreadInput(b.subject, b.comment.value, b.posterName, b.deletionPassword))
    else None
  }

  /** What an accepted body looks like as it arrived. */
  function Raw(i: CreateThreadInput): RawThreadBody {
    RawThreadBody(i.subject, Some(i.comment), i.posterName, i.deletionPassword)
  }

  /** Every accepted body is within the bounds, and every body within the
      bounds is accepted as it is. */
  lemma ParseCreateThreadRoundTrip(i: CreateThreadInput)
    ensures ParseCreateThread(Raw(i)).Some? <==>
              && |i.comment| >= 1
              && (i.subject.None? || |i.subject.value| <= 255)
              && (i.posterName.None? || |i.posterName.value| <= 50)
    ensures ParseCreateThread(Raw(i)).Some? ==> ParseCreateThread(Raw(i)) == Some(i)
  {
  }
}
